=== FILE: README.md ===
# WeChat webhook message-size pipeline, in Dafny

This project models the delivery core of the notification layer of a stock
analysis reporter (`notification.py`). `NotificationService.send_to_wechat`
takes one Markdown text and posts it to a WeChat Work group-robot webhook. The
webhook accepts at most 4096 UTF-8 bytes per message, so the text goes through
four stages:

- a **line-packing chunker** splits the text on `'\n'` and packs whole lines
  greedily into chunks of at most `MAX_BYTE_LENGTH = 2000` bytes. Each line is
  charged its own bytes plus one for its newline;
- a **forced slicer** handles a line too big on its own. It first emits the
  pending chunk, then cuts the line into slices of `2000 // 4 = 500` code points;
- a **paginator** prefixes `"(i/N)\n"` when there are N > 1 chunks and
  re-checks each message against 4096 bytes. A message still over the limit is
  cut to 1000 code points followed by `"\n...(截断)"`;
- **delivery accounting** posts every message in order. A post counts as sent
  only for HTTP status 200 with `errcode == 0`. The call returns true exactly
  when every post counted.

The project also models the section-based packer `_send_chunked_messages`, the
signal classifier `_get_signal_level`, and a few small formatting rules.

Text is a `string`, i.e. a sequence of Unicode code points, which is exactly a
Python `str` without lone surrogates. `Utf8.Utf8Len` counts 1 to 4 bytes per
code point by value, as in RFC 3629. `Utf8.Encode` and `Utf8.Decode` are proved
to be mutually inverse in both directions (`Utf8.DecodeEncode`,
`Utf8.EncodeDecode`), so the byte counts are those of the real encoding. The
HTTP call is not modelled. Instead, the endpoint's answer to the i-th post of
one call is the parameter `replies(i)`. It is an HTTP status with either a JSON
object carrying an optional `errcode` or any other body, or it is an exception
raised by the HTTP library. "Any other body" covers text that is not JSON, where
`response.json()` raises. It also covers JSON that is not an object (`[]`,
`"ok"`, `null`), where `.get('errcode')` raises.

Modules, leaves first: `Wrappers` (Option), `Utf8`, `Text` (Python's split,
join, slicing, startswith), `Decimal` (`str(n)` and its inverse), `Segmenter`
(the line chunker), `Paginator`, `Wechat` (the pipeline and delivery of
`send_to_wechat`), `Sections` (`_send_chunked_messages`), `Signal`,
`Formatting`.

## Behaviour worth noting

- The forced-slice size is a hard bound: 500 code points of at most 4 bytes are
  at most 2000 bytes (`Segmenter.LongLineFlushesFirst`). The comments at
  notification.py:787 ("2048") and :823 ("3 bytes per character") do not match
  the constants used, which are 2000 and `// 4`.
- The last-resort truncation cuts the whole paginated text, marker included, to
  its first 1000 code points (`Paginator.Guard`).
- A text one byte over the budget can give three chunks, not two
  (`Segmenter.OneByteOverCanGiveThreeChunks`).
- Only status 200 counts as a delivery; any other status, 2xx included, returns
  false.
- A line of exactly 2000 bytes is charged 2001 and so goes to the forced
  slicer, although it would fit a chunk alone.
- `_send_chunked_messages` does not catch exceptions: the first post that
  raises ends the call (`Sections.Deliver`). `send_to_wechat` catches them and
  goes on with the next chunk.

## Model

| member | source | states |
|---|---|---|
| Utf8.Utf8Len | notification.py:791 | the UTF-8 size of a text is between its code-point count and four times it |
| Utf8.EncodeLength | notification.py:810-811 | the byte count used everywhere is the length of the actual UTF-8 encoding |
| Utf8.DecodeEncode | notification.py:791 | decoding the UTF-8 encoding of any text gives the text back |
| Utf8.EncodeDecode | notification.py:791 | the decoder accepts only well-formed UTF-8: encoding what it decodes gives the bytes back |
| Utf8.EncodeConcat | notification.py:824-826 | a text cut between code points encodes to the concatenation of its pieces' encodings, so no multi-byte character is split |
| Utf8.Utf8LenConcat | notification.py:810-811 | the byte size of a concatenation is the sum of the byte sizes |
| Text.JoinSplit | notification.py:806 | joining the pieces of `s.split(sep)` with `sep` gives `s` back |
| Text.SplitPiecesLack | notification.py:806 | no line produced by `split('\n')` contains a newline |
| Text.SplitAtFirst | notification.py:806 | the text before the first separator is the first piece of the split |
| Text.Utf8LenJoin | notification.py:817 | the byte size of a join is the sum of the parts plus one separator between neighbours |
| Decimal.Digits | notification.py:851 | `str(n)` is a non-empty string of decimal digits |
| Decimal.ParseDigitsRoundTrip | notification.py:851 | the digits written into a page marker read back as the number |
| Decimal.DigitsMonotone | notification.py:851 | the page index never has more digits than the page total |
| Segmenter.LineSize | notification.py:810-811 | a line is charged its own UTF-8 bytes plus one for its newline |
| Segmenter.Slices | notification.py:824-826 | forced slices are non-empty, exist exactly when the line is non-empty, and are cut at fixed offsets: every slice but the last has exactly 500 code points, the last at most 500 |
| Segmenter.SliceCount | notification.py:825-826 | a forced line gives as many slices as `range(0, len(line), 500)` has offsets, its length over 500 rounded up |
| Segmenter.SlicesRebuildLine | notification.py:824-826 | the forced slices glue back into the line |
| Segmenter.LongLineFlushesFirst | notification.py:814-827 | on an oversized line the pending chunk is emitted first, then exactly the line's forced slices, of at most 500 code points and 2000 bytes, that glue back into the line, and nothing stays pending |
| Segmenter.ChargeJoin | notification.py:830-842 | a packed chunk's byte size is its running size minus one |
| Segmenter.StepValid | notification.py:808-838 | one loop iteration keeps every emitted chunk within 2000 bytes and the running size equal to the pending lines' charge, at most 2000 |
| Segmenter.Chunk | notification.py:802-842 | the loop over the lines, with the final flush, yields chunks that are each at most 2000 UTF-8 bytes, whether packed from whole lines or forced slices |
| Segmenter.ChunksRunningSizeFits | notification.py:829-838 | when no line is too big alone, every chunk's running size, its bytes plus one, is at most 2000, so no chunk is packed past the budget |
| Segmenter.ChunksAreGreedy | notification.py:829-838 | when no line is too big alone, a chunk is closed only because the first line of the next chunk would push its running size (its bytes plus one) past 2000 |
| Segmenter.ChunksRebuildContent | notification.py:806-842 | when no line is too big alone, joining the chunks with newlines gives the text back, in order, with at most one chunk more than the text has code points |
| Segmenter.ChunkCountLowerBound | notification.py:792-842 | the chunks carry all the bytes, so a text over 2000 bytes always becomes at least two chunks |
| Segmenter.OneByteOverCanGiveThreeChunks | notification.py:829-842 | a 2001-byte text made of an empty line, a 1999-byte line and an empty line gives three chunks |
| Paginator.NoticeSize | notification.py:858 | the truncation notice is 12 UTF-8 bytes |
| Paginator.Marker | notification.py:851 | the marker "(i/N)\n" is a single ASCII line ending in its only newline, one byte per digit plus four |
| Paginator.Page | notification.py:848-853 | with one chunk the page is the chunk itself; with N > 1 dropping the page's first line gives chunk i back, and the marker adds exactly its own bytes |
| Paginator.Guard | notification.py:855-858 | after the re-check a message is at most 4096 bytes, is unchanged when it already fit, and otherwise keeps its first 1000 code points followed by the notice |
| Paginator.TruncatedMessageSize | notification.py:856-858 | a truncated message is at most 1000 × 4 + 12 bytes |
| Paginator.Paginate | notification.py:848-858 | one message per chunk, each at most 4096 bytes |
| Paginator.PagesAreMarked | notification.py:848-858 | a single fitting chunk is sent unchanged with no marker; with N > 1 chunks message i is exactly "(i/N)\n" plus chunk i |
| Paginator.UnmarkMarker | notification.py:851 | dropping the first line of a marked page gives the chunk back |
| Paginator.UnpaginatePaginate | notification.py:848-858 | stripping the markers of the paginated chunks gives the chunks back |
| Wechat.Messages | notification.py:786-858 | at least one message, each at most 4096 bytes; a text of at most 2000 bytes is sent as exactly itself; a larger one as two messages or more |
| Wechat.LargeTextIsPaginated | notification.py:799-858 | a text over 2000 bytes is sent as N ≥ 2 messages, message i being "(i/N)\n" plus chunk i |
| Wechat.ReassembleMessages | notification.py:791-858 | when no line is too big alone, stripping the markers and rejoining the messages with newlines gives the original text |
| Wechat.SendSingle | notification.py:871-896 | a send returns true exactly for status 200 with errcode 0, and raises exactly when the HTTP call raises or a 200 body is not a JSON object (`response.json()` or `.get` raises) |
| Wechat.SucceededIffDelivered | notification.py:886-896 | a send succeeds exactly when its reply is a delivery; a remote rejection returns false rather than raising |
| Wechat.Tally | notification.py:845-867 | the success count never exceeds the number of attempts |
| Wechat.TallyAll | notification.py:845-869 | the count equals the number of attempts exactly when every attempt succeeded |
| Wechat.SendToWechat | notification.py:782-797 | with no webhook nothing is posted and the result is false; otherwise the posts are exactly the pipeline's messages, in order |
| Wechat.DeliveryAllOrNothing | notification.py:845-869 | every message is attempted whatever earlier attempts returned or raised, and the call returns true exactly when all of them succeeded |
| Sections.GroupsPartitionSections | notification.py:906-931 | every section goes into exactly one chunk, in order, and no chunk is empty |
| Sections.GroupLengthJoin | notification.py:914-920 | a chunk's length is its running length minus one divider |
| Sections.MultiSectionGroupsFit | notification.py:917-927 | a chunk of two sections or more keeps its running length within max_length |
| Sections.GroupsAreGreedy | notification.py:917-931 | a chunk is closed only because the first section of the next chunk would push its running length past max_length |
| Sections.OversizedChunkIsOneSection | notification.py:913-931 | a chunk longer than max_length holds a single section |
| Sections.Chunks | notification.py:906-940 | one chunk per group of sections, and joining the chunks with "\n---\n" gives the text back |
| Sections.Deliver | notification.py:917-940 | without exceptions every chunk is posted in order and the result is the conjunction of the sends; the first send that raises ends the call after the chunks before it |
| Sections.SendChunked | notification.py:899-940 | the call finishes exactly when no send raises; then all chunks are posted, they rejoin into the text, and `all_success` holds exactly when every send succeeded; otherwise the posts are the chunks up to the first send that raises |
| Signal.GetSignalLevel | notification.py:244-267 | the returned triple is that of the first matching row of the six-row rule table; its text is '强烈买入' exactly for the advice '强烈买入' or a score of at least 80, and an advice in no list gets the triple of its score band |
| Signal.SignalLevel | notification.py:254-267 | the branch chain returns the level of the first matching rule of the six-row table, and some row always matches, so the final else is unreachable |
| Signal.StrongBuySignal | notification.py:254-255 | the level is '强烈买入' exactly when the advice is '强烈买入' or the score is at least 80 |
| Signal.UnknownAdviceFollowsScore | notification.py:254-265 | an advice text in no list is classified by the score bands alone |
| Signal.ScoreBandMonotone | notification.py:254-265 | by score alone, a higher score never gives a more bearish level |
| Formatting.DisplayName | notification.py:312 | the shown name is never empty; it is the real name unless that is empty or a '股票' placeholder, and then '股票' plus the code |
| Formatting.Ellipsize | notification.py:730 | a text of at most n code points is kept; a longer one becomes its first n code points followed by "...", so never more than n + 3 |
| Formatting.SummaryFields | notification.py:729-741 | the reason, key points and risk warning are kept when within 80, 60 and 50 code points, and otherwise become exactly their first 80, 60 and 50 code points followed by "..." |
| Formatting.FailedChecks | notification.py:653 | kept items are checklist items starting with '❌' or '⚠️', and every such item is kept |
| Formatting.FailedChecksConcat | notification.py:653 | the filter keeps the checklist order |
| Formatting.TalliesPartition | notification.py:87-89 | the buy, sell and hold tallies never count a result twice; they add up to the number of results exactly when every advice is in a list |

## Left out

- The HTTP POST, JSON encoding and decoding, and the 10-second timeout (notification.py:880-884) are replaced by the per-attempt reply parameter.
- `time.sleep` pacing (notification.py:684, :865) and all logging have no effect on what is posted or returned.
- Configuration lookup (`get_config`, notification.py:42) is reduced to a `configured` flag, which stands for `is_available()`. File saving (`save_report_to_file`) is I/O.
- Report templating (`generate_daily_report`, `generate_dashboard_report`, `format_wechat_*`, `generate_wechat_summary`, `NotificationBuilder`) is string formatting over analysis records defined in analyzer.py. analyzer.py is not part of this model, and the templates also read the clock.
- The float average and its formatting (notification.py:90, :100) are floating-point work.
- `send_batch_notifications` (summary first, then one message per result by descending score) is left out. It sorts analysis records with Python's `sorted`, whose record type is not part of this model.
- `encode('utf-8')` raising on lone surrogates is left out, because Dafny strings hold only Unicode scalar values.
- Wechat.SendSingle: the JSON `errcode` is an optional integer. Python also treats `0.0` and `false` as equal to 0; that comparison is not modelled.
- Wechat.LargeTextIsPaginated: proved only when the chunk count has at most 1000 decimal digits. Beyond that, the marker alone could push a page over 4096 bytes and into the truncation branch.
- Wechat.ReassembleMessages: proved for texts shorter than 10^12 code points and without a line too big alone. Forced slices are rejoined with newlines that were not in the text; `Segmenter.LongLineFlushesFirst` states what happens to such a line instead.
- Segmenter.ChunksRebuildContent: holds only when no line is forced-sliced, for the same reason.
- Segmenter.ChunksAreGreedy: stated only when no line is forced-sliced. Next to a forced line the pending chunk is emitted whatever its size, which `Segmenter.LongLineFlushesFirst` states instead.
- Segmenter.ChunksRunningSizeFits: stated only when no line is forced-sliced. A forced slice of 500 four-byte code points is exactly 2000 bytes, within the budget but not within the running-size bound of a packed chunk.

=== FILE: decimal.dfy ===
/** The decimal form of a natural number, as used in the page markers, and its inverse. */
module Decimal {

  function DigitChar(d: nat): (c: char)
    requires d < 10
    ensures '0' <= c <= '9'
  {
    ('0' as int + d) as char
  }

  /** The decimal form of `n`: digits, most significant first, no leading zero. */
  function Digits(n: nat): (s: string)
    ensures |s| >= 1
    ensures forall i :: 0 <= i < |s| ==> '0' <= s[i] <= '9'
  {
    if n < 10 then [DigitChar(n)] else Digits(n / 10) + [DigitChar(n % 10)]
  }

  /** The number a string of decimal digits stands for. */
  function ParseDigits(s: string): nat
  {
    if |s| == 0 then 0
    else 10 * ParseDigits(s[..|s| - 1]) + ((s[|s| - 1] as int - '0' as int) % 10)
  }

  function Pow10(k: nat): (p: nat)
    ensures p >= 1
  {
    if k == 0 then 1 else 10 * Pow10(k - 1)
  }

  /** Reading the digits back gives the number. */
  lemma {:induction false} ParseDigitsRoundTrip(n: nat)
    ensures ParseDigits(Digits(n)) == n
  {
    if n >= 10 {
      ParseDigitsRoundTrip(n / 10);
      var s := Digits(n);
      assert s[..|s| - 1] == Digits(n / 10);
    }
  }

  /** A number below 10^k has at most k digits. */
  lemma {:induction false} DigitsBound(n: nat, k: nat)
    requires 1 <= k
    requires n < Pow10(k)
    ensures |Digits(n)| <= k
  {
    if n >= 10 {
      assert Pow10(1) == 10;
      DigitsBound(n / 10, k - 1);
    }
  }

  /** A larger number never has fewer digits. */
  lemma {:induction false} DigitsMonotone(a: nat, b: nat)
    requires a <= b
    ensures |Digits(a)| <= |Digits(b)|
  {
    if a >= 10 {
      DigitsMonotone(a / 10, b / 10);
    }
  }
}

=== FILE: formatting.dfy ===
/**
  Small pure rules of the report formatters: the displayed stock name
  (notification.py:312, :570), the "..." truncations of the WeChat summary
  (notification.py:730-741), the failed-checklist filter (notification.py:653)
  and the buy/sell/hold tallies (notification.py:87-89).
 */
module Formatting {

  import opened Text

  /** The prefix of a placeholder name, '股票' ("stock"). */
  const StockPrefix: string := "股票"

  /**
    The stock name shown in a heading: the analysis result's own name, unless it
    is empty or a '股票' placeholder, in which case '股票' followed by the code.
   */
  function DisplayName(name: string, code: string): (r: string)
    ensures |r| > 0
    ensures StartsWith(r, StockPrefix) ==> r == StockPrefix + code
    ensures !StartsWith(r, StockPrefix) ==> r == name
    ensures |name| > 0 && !StartsWith(name, StockPrefix) ==> r == name
  {
    if |name| > 0 && !StartsWith(name, StockPrefix) then name else StockPrefix + code
  }

  /** Code points kept of the reason, key points and risk warning lines. */
  const ReasonChars: nat := 80
  const KeyPointChars: nat := 60
  const RiskChars: nat := 50

  /** A text cut to its first `n` code points and marked with "..." when it is longer than `n`. */
  function Ellipsize(s: string, n: nat): (r: string)
    ensures |s| <= n ==> r == s
    ensures |s| > n ==> |r| == n + 3 && r[n..] == "..."
    ensures |r| <= n + 3
    ensures Take(s, n) <= r
  {
    if |s| > n then s[..n] + "..." else s
  }

  /**
    The reason, key-point and risk lines of a summary entry, each shortened to
    its own limit: short texts are kept, long ones keep their opening.
   */
  function SummaryFields(reason: string, keyPoints: string, risk: string): (r: (string, string, string))
    ensures |r.0| <= ReasonChars + 3 && |r.1| <= KeyPointChars + 3 && |r.2| <= RiskChars + 3
    ensures Take(reason, ReasonChars) <= r.0 && Take(keyPoints, KeyPointChars) <= r.1 && Take(risk, RiskChars) <= r.2
    ensures |reason| <= ReasonChars ==> r.0 == reason
    ensures |keyPoints| <= KeyPointChars ==> r.1 == keyPoints
    ensures |risk| <= RiskChars ==> r.2 == risk
    ensures |reason| > ReasonChars ==> r.0 == reason[..ReasonChars] + "..."
    ensures |keyPoints| > KeyPointChars ==> r.1 == keyPoints[..KeyPointChars] + "..."
    ensures |risk| > RiskChars ==> r.2 == risk[..RiskChars] + "..."
  {
    (Ellipsize(reason, ReasonChars), Ellipsize(keyPoints, KeyPointChars), Ellipsize(risk, RiskChars))
  }

  /** A checklist item that did not pass: it starts with '❌' or '⚠️'. */
  predicate IsFailedCheck(item: string)
  {
    StartsWith(item, "❌") || StartsWith(item, "⚠️")
  }

  /** The checklist items that did not pass, in checklist order. */
  function FailedChecks(checklist: seq<string>): (r: seq<string>)
    ensures |r| <= |checklist|
    ensures forall i :: 0 <= i < |r| ==> IsFailedCheck(r[i]) && r[i] in checklist
    ensures forall i :: 0 <= i < |checklist| && IsFailedCheck(checklist[i]) ==> checklist[i] in r
  {
    if |checklist| == 0 then []
    else
      var init, last := checklist[..|checklist| - 1], checklist[|checklist| - 1];
      assert forall x :: x in init ==> x in checklist;
      FailedChecks(init) + (if IsFailedCheck(last) then [last] else [])
  }

  /** The filter keeps the order: filtering a concatenation concatenates the filtered parts. */
  lemma {:induction false} FailedChecksConcat(a: seq<string>, b: seq<string>)
    ensures FailedChecks(a + b) == FailedChecks(a) + FailedChecks(b)
    decreases |b|
  {
    if |b| == 0 {
      assert a + b == a;
    } else {
      var init := b[..|b| - 1];
      assert (a + b)[..|a + b| - 1] == a + init;
      FailedChecksConcat(a, init);
    }
  }

  /** The advice texts counted as buy, sell and hold. */
  const BuyAdvice: seq<string> := ["买入", "加仓", "强烈买入"]
  const SellAdvice: seq<string> := ["卖出", "减仓", "强烈卖出"]
  const HoldAdvice: seq<string> := ["持有", "观望"]

  /** How many of the advice texts belong to `group`. */
  function CountIn(advices: seq<string>, group: seq<string>): (n: nat)
    ensures n <= |advices|
  {
    if |advices| == 0 then 0
    else CountIn(advices[..|advices| - 1], group) + (if advices[|advices| - 1] in group then 1 else 0)
  }

  /** An advice is tallied in some group. */
  predicate Tallied(advice: string)
  {
    advice in BuyAdvice || advice in SellAdvice || advice in HoldAdvice
  }

  /**
    The three groups are disjoint, so no result is counted twice: the tallies
    add up to the number of results exactly when every advice is in a group.
   */
  lemma {:induction false} TalliesPartition(advices: seq<string>)
    ensures CountIn(advices, BuyAdvice) + CountIn(advices, SellAdvice) + CountIn(advices, HoldAdvice) <= |advices|
    ensures CountIn(advices, BuyAdvice) + CountIn(advices, SellAdvice) + CountIn(advices, HoldAdvice) == |advices|
            <==> forall i :: 0 <= i < |advices| ==> Tallied(advices[i])
  {
    if |advices| > 0 {
      var init := advices[..|advices| - 1];
      TalliesPartition(init);
      var last := advices[|advices| - 1];
      assert !(last in BuyAdvice && last in SellAdvice);
      assert !(last in BuyAdvice && last in HoldAdvice);
      assert !(last in SellAdvice && last in HoldAdvice);
      assert forall i :: 0 <= i < |init| ==> init[i] == advices[i];
    }
  }
}

=== FILE: paginator.dfy ===
/**
  The pagination step of `send_to_wechat` (notification.py:848-858): with more
  than one chunk, chunk i (counting from 1) is prefixed with "(i/N)\n"; every
  message is then re-measured against the webhook's hard limit and, if over,
  cut to its first 1000 code points followed by a truncation notice.
 */
module Paginator {

  import opened Utf8
  import opened Text
  import opened Decimal

  /** The webhook's per-message limit in UTF-8 bytes. */
  const HardLimit: nat := 4096

  /** Code points kept by the last-resort truncation. */
  const TruncateChars: nat := 1000

  /** The notice appended after a truncation ("truncated"). */
  const TruncationNotice: string := "\n...(截断)"

  /**
    The page marker line: index and total in decimal, in parentheses, then a
    newline. It is one ASCII line, so it takes one byte per code point.
   */
  function Marker(index: nat, total: nat): (m: string)
    ensures IsAscii(m) && Utf8Len(m) == |m| == |Digits(index)| + |Digits(total)| + 4
    ensures m[|m| - 1] == '\n' && Lacks(m[..|m| - 1], '\n')
  {
    var m := "(" + Digits(index) + "/" + Digits(total) + ")\n";
    AsciiUtf8Len(m);
    assert m[..|m| - 1] == "(" + Digits(index) + "/" + Digits(total) + ")";
    m
  }

  /** The re-check: a message over the hard limit keeps its first 1000 code points and a notice. */
  function Guard(msg: string): (r: string)
    ensures Utf8Len(r) <= HardLimit
    ensures Utf8Len(msg) <= HardLimit ==> r == msg
    ensures Utf8Len(msg) > HardLimit ==> r == msg[..TruncateChars] + TruncationNotice
  {
    if Utf8Len(msg) > HardLimit then
      NoticeSize();
      Utf8LenConcat(Take(msg, TruncateChars), TruncationNotice);
      Take(msg, TruncateChars) + TruncationNotice
    else
      msg
  }

  /**
    Chunk `i` with its marker when there is more than one chunk: the marker
    adds its ASCII bytes in front, and dropping the first line of the page
    gives the chunk back.
   */
  function Page(chunks: seq<string>, i: nat): (p: string)
    requires i < |chunks|
    ensures |chunks| == 1 ==> p == chunks[i]
    ensures |chunks| > 1 ==> Unmark(p) == chunks[i]
    ensures |chunks| > 1 ==> Utf8Len(p) == |Digits(i + 1)| + |Digits(|chunks|)| + 4 + Utf8Len(chunks[i])
  {
    if |chunks| > 1 then
      UnmarkMarker(i + 1, |chunks|, chunks[i]);
      Utf8LenConcat(Marker(i + 1, |chunks|), chunks[i]);
      Marker(i + 1, |chunks|) + chunks[i]
    else
      chunks[i]
  }

  /** The messages sent for a list of chunks, in order. */
  function Paginate(chunks: seq<string>): (msgs: seq<string>)
    ensures |msgs| == |chunks|
    ensures forall i :: 0 <= i < |msgs| ==> Utf8Len(msgs[i]) <= HardLimit
  {
    seq(|chunks|, i requires 0 <= i < |chunks| => Guard(Page(chunks, i)))
  }

  /** The text after the first '\n' of a message: the page without its marker line. */
  function Unmark(msg: string): string
  {
    if |msg| == 0 then ""
    else if msg[0] == '\n' then msg[1..]
    else Unmark(msg[1..])
  }

  /** Undoes `Paginate` on pages that were not truncated. */
  function Unpaginate(msgs: seq<string>): seq<string>
  {
    if |msgs| <= 1 then msgs else seq(|msgs|, i requires 0 <= i < |msgs| => Unmark(msgs[i]))
  }

  lemma NoticeSize()
    ensures Utf8Len(TruncationNotice) == 12
  {
    var n := TruncationNotice;
    assert n == "\n...(" + ['截'] + ['断'] + [')'];
    AsciiUtf8Len("\n...(");
    Utf8LenConcat("\n...(", ['截']);
    Utf8LenConcat("\n...(" + ['截'], ['断']);
    Utf8LenConcat("\n...(" + ['截'] + ['断'], [')']);
    assert [')'][..0] == [] && ['截'][..0] == [] && ['断'][..0] == [];
  }

  lemma {:induction false} UnmarkSkipsFirstLine(head: string, body: string)
    requires Lacks(head, '\n')
    ensures Unmark(head + "\n" + body) == body
    decreases |head|
  {
    if |head| > 0 {
      assert (head + "\n" + body)[1..] == head[1..] + "\n" + body;
      UnmarkSkipsFirstLine(head[1..], body);
    }
  }

  /** Removing the marker line of a marked page gives the chunk back. */
  lemma UnmarkMarker(index: nat, total: nat, chunk: string)
    ensures Unmark(Marker(index, total) + chunk) == chunk
  {
    var m := Marker(index, total);
    var head := m[..|m| - 1];
    assert m + chunk == head + "\n" + chunk;
    UnmarkSkipsFirstLine(head, chunk);
  }

  /** A marked page fits the hard limit when the chunk fits 2000 bytes and N has at most 1000 digits. */
  lemma MarkedPageFits(chunks: seq<string>, i: nat)
    requires i < |chunks|
    requires Utf8Len(chunks[i]) <= 2000
    requires |Digits(|chunks|)| <= 1000
    ensures Utf8Len(Page(chunks, i)) <= HardLimit
  {
    if |chunks| > 1 {
      DigitsMonotone(i + 1, |chunks|);
    }
  }

  /**
    A single chunk that fits is sent unchanged, with no marker; with N > 1
    chunks, message i is exactly "(i/N)\n" followed by chunk i.
   */
  lemma PagesAreMarked(chunks: seq<string>)
    requires forall i :: 0 <= i < |chunks| ==> Utf8Len(chunks[i]) <= 2000
    requires |Digits(|chunks|)| <= 1000
    ensures |chunks| == 1 ==> Paginate(chunks) == chunks
    ensures |chunks| > 1 ==> forall i :: 0 <= i < |chunks| ==> Paginate(chunks)[i] == Marker(i + 1, |chunks|) + chunks[i]
  {
    forall i | 0 <= i < |chunks|
      ensures Paginate(chunks)[i] == Page(chunks, i)
    {
      MarkedPageFits(chunks, i);
    }
  }

  /** Stripping the markers of the paginated chunks gives the chunks back. */
  lemma UnpaginatePaginate(chunks: seq<string>)
    requires forall i :: 0 <= i < |chunks| ==> Utf8Len(chunks[i]) <= 2000
    requires |Digits(|chunks|)| <= 1000
    ensures Unpaginate(Paginate(chunks)) == chunks
  {
    PagesAreMarked(chunks);
    var msgs := Paginate(chunks);
    if |chunks| > 1 {
      assert Unpaginate(msgs) == seq(|msgs|, i requires 0 <= i < |msgs| => Unmark(msgs[i]));
      forall i | 0 <= i < |chunks|
        ensures Unmark(msgs[i]) == chunks[i]
      {
        UnmarkMarker(i + 1, |chunks|, chunks[i]);
      }
    }
  }

  /** A truncated message is at most 1000 code points of 4 bytes plus the 12-byte notice. */
  lemma TruncatedMessageSize(msg: string)
    requires Utf8Len(msg) > HardLimit
    ensures Utf8Len(Guard(msg)) <= TruncateChars * 4 + 12
  {
    NoticeSize();
    Utf8LenConcat(Take(msg, TruncateChars), TruncationNotice);
  }
}

=== FILE: sections.dfy ===
/**
  `NotificationService._send_chunked_messages` (notification.py:899-940): the
  text is split on "\n---\n" dividers, whole sections are packed greedily into
  chunks by code-point count, and each chunk is sent as soon as it is closed.

  Unlike `send_to_wechat`, this method does not catch exceptions: the first
  send that raises ends the call.  Packing never depends on a send's result,
  so the chunks are computed first and then sent in order.
 */
module Sections {

  import opened Text
  import opened Wechat

  const Divider: string := "\n---\n"

  /** The loop state: closed groups of sections, the open group and its running length. */
  datatype SectionPacker = SectionPacker(groups: seq<seq<string>>, current: seq<string>, length: int)

  /** A section is charged its length in code points plus one divider. */
  function SectionLength(section: string): nat
  {
    |section + Divider|
  }

  /** The running length of a group: the sum of its section lengths. */
  function GroupLength(group: seq<string>): nat
  {
    if |group| == 0 then 0 else GroupLength(group[..|group| - 1]) + SectionLength(group[|group| - 1])
  }

  /** One iteration of the loop over the sections. */
  function Step(st: SectionPacker, section: string, maxLength: int): SectionPacker
  {
    var sectionLength := SectionLength(section);
    if st.length + sectionLength > maxLength then
      SectionPacker(st.groups + (if |st.current| > 0 then [st.current] else []), [section], sectionLength)
    else
      SectionPacker(st.groups, st.current + [section], st.length + sectionLength)
  }

  function Scan(sections: seq<string>, maxLength: int): SectionPacker
  {
    if |sections| == 0 then SectionPacker([], [], 0)
    else Step(Scan(sections[..|sections| - 1], maxLength), sections[|sections| - 1], maxLength)
  }

  /** The groups of sections, in the order their chunks are sent. */
  function Groups(content: string, maxLength: int): seq<seq<string>>
  {
    var st := Scan(Split(content, Divider), maxLength);
    st.groups + (if |st.current| > 0 then [st.current] else [])
  }

  /**
    The chunk texts, one per group: joining them with the divider gives the
    text back, so every section is sent once, in order, and nothing is added.
   */
  function Chunks(content: string, maxLength: int): (chunks: seq<string>)
    ensures |chunks| == |Groups(content, maxLength)|
    ensures Join(chunks, Divider) == content
  {
    var groups := Groups(content, maxLength);
    GroupsRebuildContent(content, maxLength);
    seq(|groups|, i requires 0 <= i < |groups| => Join(groups[i], Divider))
  }

  /** Joining the groups' texts with the divider gives the text back. */
  lemma GroupsRebuildContent(content: string, maxLength: int)
    ensures var groups := Groups(content, maxLength);
      Join(seq(|groups|, i requires 0 <= i < |groups| => Join(groups[i], Divider)), Divider) == content
  {
    var groups := Groups(content, maxLength);
    GroupsPartitionSections(content, maxLength);
    assert |groups| > 0 by {
      ScanValid(Split(content, Divider), maxLength);
    }
    JoinGroups(groups);
    JoinSplit(content, Divider);
  }

  /** The sections of a list of groups, in order. */
  function Flatten(groups: seq<seq<string>>): seq<string>
  {
    if |groups| == 0 then [] else Flatten(groups[..|groups| - 1]) + groups[|groups| - 1]
  }

  /** How a call of `_send_chunked_messages` ends: it returns `all_success`, or an exception escapes. */
  datatype ChunkedResult = Finished(attempts: seq<string>, allSuccess: bool) | Aborted(attempts: seq<string>)

  /**
    Sending `msgs` in order: `all_success` is cleared by a false send, and the
    first send that raises ends the call with that message as the last attempt.
   */
  function Deliver(msgs: seq<string>, replies: nat -> Reply): (r: ChunkedResult)
    ensures r.Finished? <==> forall i :: 0 <= i < |msgs| ==> SendSingle(replies(i)) != Threw
    ensures r.Finished? ==> r.attempts == msgs
    ensures r.Finished? ==> (r.allSuccess <==> forall i :: 0 <= i < |msgs| ==> Succeeded(replies(i)))
    ensures r.Aborted? ==> 0 < |r.attempts| <= |msgs| && r.attempts == msgs[..|r.attempts|]
    ensures r.Aborted? ==> SendSingle(replies(|r.attempts| - 1)) == Threw
    ensures r.Aborted? ==> forall i :: 0 <= i < |r.attempts| - 1 ==> SendSingle(replies(i)) != Threw
  {
    if |msgs| == 0 then Finished([], true)
    else
      var init, last := msgs[..|msgs| - 1], msgs[|msgs| - 1];
      match Deliver(init, replies)
      case Aborted(a) => Aborted(a)
      case Finished(a, ok) =>
        match SendSingle(replies(|init|))
        case Threw => Aborted(a + [last])
        case Returned(sent) => Finished(a + [last], ok && sent)
  }

  /**
    `_send_chunked_messages(content, max_length)` when the i-th post is answered
    by `replies(i)`. When no send raises, the posted chunks rejoin into the text
    and `all_success` is the conjunction of the sends; otherwise the call ends
    at the first send that raises, after posting the chunks before it.
   */
  function SendChunked(content: string, maxLength: int, replies: nat -> Reply): (r: ChunkedResult)
    ensures r.Finished? <==> forall i :: 0 <= i < |Chunks(content, maxLength)| ==> SendSingle(replies(i)) != Threw
    ensures r.Finished? ==> r.attempts == Chunks(content, maxLength) && Join(r.attempts, Divider) == content
    ensures r.Finished? ==> (r.allSuccess <==> forall i :: 0 <= i < |r.attempts| ==> Succeeded(replies(i)))
    ensures r.Aborted? ==> 0 < |r.attempts| <= |Chunks(content, maxLength)|
    ensures r.Aborted? ==> r.attempts == Chunks(content, maxLength)[..|r.attempts|]
    ensures r.Aborted? ==> SendSingle(replies(|r.attempts| - 1)) == Threw
  {
    Deliver(Chunks(content, maxLength), replies)
  }

  // ---------------------------------------------------------------------------
  // Lemmas

  /** The loop invariant over the sections processed so far. */
  predicate Valid(st: SectionPacker, processed: seq<string>, maxLength: int)
  {
    && Flatten(st.groups) + st.current == processed
    && st.length == GroupLength(st.current)
    && (|processed| > 0 ==> |st.current| > 0)
    && (|st.current| > 1 ==> st.length <= maxLength)
    && (forall i :: 0 <= i < |st.groups| ==> |st.groups[i]| > 0)
    && (forall i :: 0 <= i < |st.groups| ==> |st.groups[i]| > 1 ==> GroupLength(st.groups[i]) <= maxLength)
  }

  lemma StepValid(st: SectionPacker, processed: seq<string>, section: string, maxLength: int)
    requires Valid(st, processed, maxLength)
    ensures Valid(Step(st, section, maxLength), processed + [section], maxLength)
  {
    if st.length + SectionLength(section) > maxLength {
      CloseValid(st, processed, section, maxLength);
    } else {
      PackValid(st, processed, section, maxLength);
    }
  }

  /** The close branch: the open group is closed and the section opens a new one. */
  lemma CloseValid(st: SectionPacker, processed: seq<string>, section: string, maxLength: int)
    requires Valid(st, processed, maxLength)
    requires st.length + SectionLength(section) > maxLength
    ensures Valid(Step(st, section, maxLength), processed + [section], maxLength)
  {
    var groups := st.groups + (if |st.current| > 0 then [st.current] else []);
    assert Step(st, section, maxLength) == SectionPacker(groups, [section], SectionLength(section));
    assert Flatten(groups) == Flatten(st.groups) + st.current by {
      if |st.current| > 0 {
        assert groups[..|st.groups|] == st.groups;
      } else {
        assert groups == st.groups;
      }
    }
    forall i | 0 <= i < |groups|
      ensures |groups[i]| > 0 && (|groups[i]| > 1 ==> GroupLength(groups[i]) <= maxLength)
    {
      if i < |st.groups| {
        assert groups[i] == st.groups[i];
      } else {
        assert groups[i] == st.current;
      }
    }
    assert GroupLength([section]) == SectionLength(section) by {
      assert [section][..0] == [];
    }
  }

  /** The pack branch: the section joins the open group, which stays within `max_length`. */
  lemma PackValid(st: SectionPacker, processed: seq<string>, section: string, maxLength: int)
    requires Valid(st, processed, maxLength)
    requires st.length + SectionLength(section) <= maxLength
    ensures Valid(Step(st, section, maxLength), processed + [section], maxLength)
  {
    var next := Step(st, section, maxLength);
    assert next.groups == st.groups && next.current == st.current + [section];
    assert (st.current + [section])[..|st.current|] == st.current;
    assert GroupLength(st.current + [section]) == st.length + SectionLength(section);
    assert Flatten(next.groups) + next.current == processed + [section];
  }

  lemma {:induction false} ScanValid(sections: seq<string>, maxLength: int)
    ensures Valid(Scan(sections, maxLength), sections, maxLength)
  {
    if |sections| > 0 {
      var init, last := sections[..|sections| - 1], sections[|sections| - 1];
      assert init + [last] == sections;
      assert Scan(sections, maxLength) == Step(Scan(init, maxLength), last, maxLength);
      ScanValid(init, maxLength);
      StepValid(Scan(init, maxLength), init, last, maxLength);
    }
  }

  /** Every section is sent exactly once, in order, and no group is empty. */
  lemma GroupsPartitionSections(content: string, maxLength: int)
    ensures Flatten(Groups(content, maxLength)) == Split(content, Divider)
    ensures forall i :: 0 <= i < |Groups(content, maxLength)| ==> |Groups(content, maxLength)[i]| > 0
  {
    var sections := Split(content, Divider);
    var st := Scan(sections, maxLength);
    ScanValid(sections, maxLength);
    assert |st.current| > 0;
    var groups := st.groups + [st.current];
    assert groups[..|st.groups|] == st.groups;
  }

  /** `next` opens with a section that would have pushed `group`'s running length past `max_length`. */
  predicate ClosedBefore(group: seq<string>, next: seq<string>, maxLength: int)
  {
    |next| > 0 && GroupLength(group) + SectionLength(next[0]) > maxLength
  }

  /**
    What the loop keeps true: neighbouring closed groups were split only
    because the next group's first section would have pushed the running
    length past `max_length`, and the open group was opened for the same reason.
   */
  predicate Greedy(st: SectionPacker, maxLength: int)
  {
    && (forall k :: 0 <= k < |st.groups| - 1 ==> ClosedBefore(st.groups[k], st.groups[k + 1], maxLength))
    && (|st.groups| > 0 ==> ClosedBefore(st.groups[|st.groups| - 1], st.current, maxLength))
  }

  lemma StepGreedy(st: SectionPacker, section: string, maxLength: int)
    requires Greedy(st, maxLength) && st.length == GroupLength(st.current)
    ensures Greedy(Step(st, section, maxLength), maxLength)
  {
    if st.length + SectionLength(section) > maxLength {
      CloseGreedy(st, section, maxLength);
    } else {
      var next := Step(st, section, maxLength);
      assert next == SectionPacker(st.groups, st.current + [section], st.length + SectionLength(section));
      assert |st.current| > 0 ==> next.current[0] == st.current[0];
    }
  }

  /** Closing: the open group is closed because `section` would not fit after it. */
  lemma CloseGreedy(st: SectionPacker, section: string, maxLength: int)
    requires Greedy(st, maxLength) && st.length == GroupLength(st.current)
    requires st.length + SectionLength(section) > maxLength
    ensures Greedy(Step(st, section, maxLength), maxLength)
  {
    var next := Step(st, section, maxLength);
    if |st.current| > 0 {
      var groups := st.groups + [st.current];
      assert next == SectionPacker(groups, [section], SectionLength(section));
      assert ClosedBefore(st.current, [section], maxLength);
      forall k | 0 <= k < |groups| - 1
        ensures ClosedBefore(groups[k], groups[k + 1], maxLength)
      {
        if k < |st.groups| - 1 {
          assert groups[k] == st.groups[k] && groups[k + 1] == st.groups[k + 1];
        } else {
          assert groups[k] == st.groups[|st.groups| - 1] && groups[k + 1] == st.current;
        }
      }
    } else {
      assert next == SectionPacker(st.groups, [section], SectionLength(section));
    }
  }

  lemma {:induction false} ScanGreedy(sections: seq<string>, maxLength: int)
    ensures Greedy(Scan(sections, maxLength), maxLength)
  {
    if |sections| > 0 {
      var init, last := sections[..|sections| - 1], sections[|sections| - 1];
      assert Scan(sections, maxLength) == Step(Scan(init, maxLength), last, maxLength);
      ScanGreedy(init, maxLength);
      ScanValid(init, maxLength);
      StepGreedy(Scan(init, maxLength), last, maxLength);
    }
  }

  /**
    The packing is greedy: a chunk is closed only because the first section
    of the next one would have pushed its running length past `max_length`.
   */
  lemma GroupsAreGreedy(content: string, maxLength: int)
    ensures forall k :: 0 <= k < |Groups(content, maxLength)| - 1 ==>
              ClosedBefore(Groups(content, maxLength)[k], Groups(content, maxLength)[k + 1], maxLength)
  {
    var sections := Split(content, Divider);
    var st := Scan(sections, maxLength);
    ScanGreedy(sections, maxLength);
    ScanValid(sections, maxLength);
    var groups := Groups(content, maxLength);
    assert groups == st.groups + [st.current];
    forall k | 0 <= k < |groups| - 1
      ensures ClosedBefore(groups[k], groups[k + 1], maxLength)
    {
      if k < |st.groups| - 1 {
        assert groups[k] == st.groups[k] && groups[k + 1] == st.groups[k + 1];
      } else {
        assert groups[k] == st.groups[|st.groups| - 1] && groups[k + 1] == st.current;
      }
    }
  }

  /** A chunk of two sections or more was packed within `max_length`: its running length fits. */
  lemma MultiSectionGroupsFit(content: string, maxLength: int)
    ensures forall i :: 0 <= i < |Groups(content, maxLength)| && |Groups(content, maxLength)[i]| > 1 ==>
              GroupLength(Groups(content, maxLength)[i]) <= maxLength
  {
    var sections := Split(content, Divider);
    var st := Scan(sections, maxLength);
    ScanValid(sections, maxLength);
    var groups := Groups(content, maxLength);
    assert groups == st.groups + [st.current];
    forall i | 0 <= i < |groups| && |groups[i]| > 1
      ensures GroupLength(groups[i]) <= maxLength
    {
      if i < |st.groups| {
        assert groups[i] == st.groups[i];
      } else {
        assert groups[i] == st.current;
      }
    }
  }

  /** A group's text is its running length minus one divider. */
  lemma GroupLengthJoin(group: seq<string>)
    requires |group| > 0
    ensures |Join(group, Divider)| + |Divider| == GroupLength(group)
  {
    LengthJoin(group, Divider);
    GroupLengthIsSum(group);
  }

  lemma {:induction false} GroupLengthIsSum(group: seq<string>)
    ensures GroupLength(group) == SumLength(group) + |group| * |Divider|
  {
    if |group| > 0 {
      GroupLengthIsSum(group[..|group| - 1]);
    }
  }

  /** Only a chunk made of a single section can be longer than `max_length`. */
  lemma OversizedChunkIsOneSection(content: string, maxLength: int, i: nat)
    requires i < |Chunks(content, maxLength)|
    requires |Chunks(content, maxLength)[i]| > maxLength
    ensures |Groups(content, maxLength)[i]| == 1
  {
    var sections := Split(content, Divider);
    var st := Scan(sections, maxLength);
    ScanValid(sections, maxLength);
    var groups := Groups(content, maxLength);
    GroupsPartitionSections(content, maxLength);
    GroupLengthJoin(groups[i]);
    if i < |st.groups| {
      assert groups[i] == st.groups[i];
    } else {
      assert groups[i] == st.current;
    }
  }

  /** Joining non-empty groups' texts equals joining all their sections. */
  lemma {:induction false} JoinGroups(groups: seq<seq<string>>)
    requires |groups| > 0
    requires forall i :: 0 <= i < |groups| ==> |groups[i]| > 0
    ensures Join(seq(|groups|, i requires 0 <= i < |groups| => Join(groups[i], Divider)), Divider)
         == Join(Flatten(groups), Divider)
  {
    var texts := seq(|groups|, i requires 0 <= i < |groups| => Join(groups[i], Divider));
    if |groups| > 1 {
      var init := groups[..|groups| - 1];
      var initTexts := seq(|init|, i requires 0 <= i < |init| => Join(init[i], Divider));
      assert texts[..|texts| - 1] == initTexts;
      JoinGroups(init);
      assert |Flatten(init)| > 0 by {
        FlattenNonEmpty(init);
      }
      JoinConcat(Flatten(init), groups[|groups| - 1], Divider);
    } else {
      assert Flatten(groups) == groups[0] by {
        assert groups[..0] == [];
      }
    }
  }

  lemma FlattenNonEmpty(groups: seq<seq<string>>)
    requires |groups| > 0 && |groups[|groups| - 1]| > 0
    ensures |Flatten(groups)| > 0
  {
  }
}

=== FILE: segmenter.dfy ===
/**
  The line-packing chunker of `NotificationService.send_to_wechat`
  (notification.py:802-842): the text is split on '\n', whole lines are packed
  greedily into chunks whose UTF-8 size stays within `MaxByteLength`, and a line
  too big on its own is cut into slices of `SliceChars` code points.

  The loop over the lines is the left fold `Scan`; its state `Packer` holds the
  three local variables of the loop (`chunks`, `current_chunk_lines`,
  `current_chunk_size`).
 */
module Segmenter {

  import opened Utf8
  import opened Text

  /** `MAX_BYTE_LENGTH`, the chunking budget in UTF-8 bytes. */
  const MaxByteLength: nat := 2000

  /** `char_limit`, code points per forced slice: the budget over the widest UTF-8 code point. */
  const SliceChars: nat := MaxByteLength / 4

  const Newline: string := "\n"

  /** The running-size charge of a line: the UTF-8 size of the line with its newline. */
  function LineSize(line: string): (n: nat)
    ensures n == Utf8Len(line) + 1
  {
    Utf8LenConcat(line, Newline);
    NewlineIsOneByte();
    Utf8Len(line + Newline)
  }

  /** The running size of a list of lines: the sum of their line sizes. */
  function Charge(lines: seq<string>): nat
  {
    if |lines| == 0 then 0 else Charge(lines[..|lines| - 1]) + LineSize(lines[|lines| - 1])
  }

  /** Consecutive pieces of `SliceChars` code points, the last one possibly shorter. */
  function Slices(line: string): (r: seq<string>)
    ensures |line| > 0 <==> |r| > 0
    ensures forall i :: 0 <= i < |r| ==> 0 < |r[i]| <= SliceChars
    ensures forall i :: 0 <= i < |r| - 1 ==> |r[i]| == SliceChars
    decreases |line|
  {
    if |line| == 0 then []
    else if |line| <= SliceChars then [line]
    else [line[..SliceChars]] + Slices(line[SliceChars..])
  }

  /** The loop state: emitted chunks, pending lines and their running size. */
  datatype Packer = Packer(chunks: seq<string>, pending: seq<string>, size: nat)

  const Start: Packer := Packer([], [], 0)

  /** The chunks emitted so far plus the pending lines joined into one more, if any. */
  function Flush(st: Packer): seq<string>
  {
    if |st.pending| > 0 then st.chunks + [Join(st.pending, Newline)] else st.chunks
  }

  /** One iteration of the loop over the lines. */
  function Step(st: Packer, line: string): Packer
  {
    var lineSize := LineSize(line);
    if lineSize > MaxByteLength then
      // flush what is pending, then one chunk per slice of the line
      var flushed := if |st.pending| > 0 then Packer(st.chunks + [Join(st.pending, Newline)], [], 0) else st;
      flushed.(chunks := flushed.chunks + Slices(line))
    else if st.size + lineSize > MaxByteLength then
      Packer(st.chunks + [Join(st.pending, Newline)], [line], lineSize)
    else
      Packer(st.chunks, st.pending + [line], st.size + lineSize)
  }

  /** The loop run over `lines`, first line first. */
  function Scan(lines: seq<string>): Packer
  {
    if |lines| == 0 then Start else Step(Scan(lines[..|lines| - 1]), lines[|lines| - 1])
  }

  /**
    The chunk list `send_to_wechat` builds for an over-budget text. Every
    chunk, packed or sliced, is at most `MaxByteLength` UTF-8 bytes.
   */
  function Chunk(content: string): (chunks: seq<string>)
    ensures forall i :: 0 <= i < |chunks| ==> Utf8Len(chunks[i]) <= MaxByteLength
  {
    var st := Scan(Split(content, Newline));
    ScanValid(Split(content, Newline));
    FlushValid(st);
    Flush(st)
  }

  /** No line of the text is too big to be packed whole. */
  predicate NoLongLine(content: string)
  {
    var lines := Split(content, Newline);
    forall i :: 0 <= i < |lines| ==> LineSize(lines[i]) <= MaxByteLength
  }

  /** What the loop keeps true: emitted chunks fit, and `size` is the pending lines' charge. */
  predicate Valid(st: Packer)
  {
    && (forall i :: 0 <= i < |st.chunks| ==> Utf8Len(st.chunks[i]) <= MaxByteLength)
    && st.size == Charge(st.pending)
    && st.size <= MaxByteLength
  }

  // ---------------------------------------------------------------------------
  // Charges

  lemma {:induction false} ChargeConcat(a: seq<string>, b: seq<string>)
    ensures Charge(a + b) == Charge(a) + Charge(b)
    decreases |b|
  {
    if |b| == 0 {
      assert a + b == a;
    } else {
      assert (a + b)[..|a + b| - 1] == a + b[..|b| - 1];
      ChargeConcat(a, b[..|b| - 1]);
    }
  }

  /** The charge of a list of lines is the sum of their sizes plus one per line. */
  lemma {:induction false} ChargeIsSum(lines: seq<string>)
    ensures Charge(lines) == SumUtf8(lines) + |lines|
  {
    if |lines| > 0 {
      ChargeIsSum(lines[..|lines| - 1]);
    }
  }

  /**
    The joined chunk is one byte smaller than the running size: every line is
    charged a newline but the last one has none.
   */
  lemma ChargeJoin(lines: seq<string>)
    requires |lines| > 0
    ensures Utf8Len(Join(lines, Newline)) + 1 == Charge(lines)
  {
    NewlineIsOneByte();
    Utf8LenJoin(lines, Newline);
    assert (|lines| - 1) * Utf8Len(Newline) == |lines| - 1;
    ChargeIsSum(lines);
  }

  lemma NewlineIsOneByte()
    ensures Utf8Len(Newline) == 1
  {
    assert Newline[..0] == [];
  }

  /** A list of chunks that all fit the budget is charged at most budget + 1 each. */
  lemma {:induction false} ChargeOfFittingChunks(chunks: seq<string>)
    requires forall i :: 0 <= i < |chunks| ==> Utf8Len(chunks[i]) <= MaxByteLength
    ensures Charge(chunks) <= |chunks| * (MaxByteLength + 1)
  {
    if |chunks| > 0 {
      ChargeOfFittingChunks(chunks[..|chunks| - 1]);
    }
  }

  // ---------------------------------------------------------------------------
  // Forced slices

  /** Gluing the slices back together gives the line. */
  lemma {:induction false} SlicesRebuildLine(line: string)
    ensures Join(Slices(line), "") == line
    decreases |line|
  {
    if |line| > SliceChars {
      var rest := Slices(line[SliceChars..]);
      SlicesRebuildLine(line[SliceChars..]);
      JoinCons(line[..SliceChars], rest, "");
      assert line == line[..SliceChars] + line[SliceChars..];
    }
  }

  /** There are as many slices as `range(0, len(line), 500)` has offsets: the line's length over 500, rounded up. */
  lemma {:induction false} SliceCount(line: string)
    ensures |Slices(line)| == (|line| + SliceChars - 1) / SliceChars
    decreases |line|
  {
    var n := |line|;
    if n > SliceChars {
      SliceCount(line[SliceChars..]);
      assert (n + SliceChars - 1) / SliceChars == (n - 1) / SliceChars + 1 by {
        DivPlusDivisor(n - 1);
      }
    } else if n > 0 {
      assert SliceChars <= n + SliceChars - 1 < 2 * SliceChars;
    }
  }

  lemma DivPlusDivisor(a: nat)
    ensures (a + SliceChars) / SliceChars == a / SliceChars + 1
  {
    assert SliceChars == 500;
  }

  /** No slice is over budget: 500 code points of at most 4 bytes each. */
  lemma SlicesFit(line: string)
    ensures forall i :: 0 <= i < |Slices(line)| ==> Utf8Len(Slices(line)[i]) <= MaxByteLength
  {
  }

  /** The slices together carry the line's bytes, plus one charge unit each. */
  lemma SlicesCharge(line: string)
    requires |line| > 0
    ensures Charge(Slices(line)) >= LineSize(line)
  {
    var r := Slices(line);
    assert |r| > 0;
    ChargeIsSum(r);
    SlicesRebuildLine(line);
    Utf8LenJoin(r, "");
    assert Utf8Len("") == 0;
    assert Utf8Len(line) == SumUtf8(r) + (|r| - 1) * 0;
  }

  /**
    A line too big on its own: whatever was pending is emitted first, as one
    chunk, then the line follows as slices of at most `SliceChars` code points
    (and so at most `MaxByteLength` bytes) that glue back into the line.
   */
  lemma LongLineFlushesFirst(st: Packer, line: string)
    requires LineSize(line) > MaxByteLength
    ensures Step(st, line).pending == []
    ensures |Flush(st)| < |Step(st, line).chunks|
    ensures Step(st, line).chunks[..|Flush(st)|] == Flush(st)
    ensures Step(st, line).chunks[|Flush(st)|..] == Slices(line)
    ensures Join(Step(st, line).chunks[|Flush(st)|..], "") == line
    ensures forall i :: |Flush(st)| <= i < |Step(st, line).chunks| ==>
              |Step(st, line).chunks[i]| <= SliceChars && Utf8Len(Step(st, line).chunks[i]) <= MaxByteLength
  {
    var next := Step(st, line);
    assert next.chunks == Flush(st) + Slices(line);
    assert next.chunks[|Flush(st)|..] == Slices(line);
    SlicesRebuildLine(line);
    SlicesFit(line);
  }

  // ---------------------------------------------------------------------------
  // Byte bound

  lemma StepValid(st: Packer, line: string)
    requires Valid(st)
    ensures Valid(Step(st, line))
  {
    var lineSize := LineSize(line);
    if lineSize > MaxByteLength {
      SliceValid(st, line);
    } else if st.size + lineSize > MaxByteLength {
      CloseValid(st, line);
    } else {
      PackValid(st, line);
    }
  }

  /** The forced branch: the flushed chunks and the slices all fit, and nothing is pending. */
  lemma SliceValid(st: Packer, line: string)
    requires Valid(st) && LineSize(line) > MaxByteLength
    ensures Valid(Step(st, line))
  {
    var flushed, slices := Flush(st), Slices(line);
    assert Step(st, line) == Packer(flushed + slices, [], 0);
    FlushValid(st);
    SlicesFit(line);
    forall i | 0 <= i < |flushed + slices| ensures Utf8Len((flushed + slices)[i]) <= MaxByteLength {
      if i < |flushed| {
        assert (flushed + slices)[i] == flushed[i];
      } else {
        assert (flushed + slices)[i] == slices[i - |flushed|];
      }
    }
  }

  /** The overflow branch: the pending chunk is emitted and `line` starts a new one. */
  lemma CloseValid(st: Packer, line: string)
    requires Valid(st) && LineSize(line) <= MaxByteLength < st.size + LineSize(line)
    ensures Valid(Step(st, line))
  {
    assert Step(st, line) == Packer(Flush(st), [line], LineSize(line)) by {
      assert |st.pending| > 0;
    }
    FlushValid(st);
    assert Charge([line]) == LineSize(line) by {
      assert [line][..0] == [];
    }
  }

  /** The fit branch: `line` joins the pending chunk and the charge grows by its size. */
  lemma PackValid(st: Packer, line: string)
    requires Valid(st) && st.size + LineSize(line) <= MaxByteLength
    ensures Valid(Step(st, line))
  {
    assert Step(st, line) == Packer(st.chunks, st.pending + [line], st.size + LineSize(line));
    assert (st.pending + [line])[..|st.pending|] == st.pending;
    assert Charge(st.pending + [line]) == st.size + LineSize(line);
  }

  lemma {:induction false} ScanValid(lines: seq<string>)
    ensures Valid(Scan(lines))
  {
    if |lines| > 0 {
      ScanValid(lines[..|lines| - 1]);
      StepValid(Scan(lines[..|lines| - 1]), lines[|lines| - 1]);
    }
  }

  lemma FlushValid(st: Packer)
    requires Valid(st)
    ensures forall i :: 0 <= i < |Flush(st)| ==> Utf8Len(Flush(st)[i]) <= MaxByteLength
  {
    if |st.pending| > 0 {
      ChargeJoin(st.pending);
    }
  }

  // ---------------------------------------------------------------------------
  // Lossless packing

  lemma StepJoin(st: Packer, line: string, lines: seq<string>)
    requires |st.pending| > 0
    requires |lines| > 0 && Join(Flush(st), Newline) == Join(lines, Newline)
    requires LineSize(line) <= MaxByteLength
    ensures |Step(st, line).pending| > 0
    ensures Join(Flush(Step(st, line)), Newline) == Join(lines + [line], Newline)
  {
    JoinAppend(lines, line, Newline);
    if st.size + LineSize(line) > MaxByteLength {
      CloseJoin(st, line);
    } else {
      PackJoin(st, line);
    }
  }

  /** Closing the pending chunk and starting a new one with `line`. */
  lemma CloseJoin(st: Packer, line: string)
    requires |st.pending| > 0
    requires LineSize(line) <= MaxByteLength < st.size + LineSize(line)
    ensures |Step(st, line).pending| > 0
    ensures Join(Flush(Step(st, line)), Newline) == Join(Flush(st), Newline) + Newline + line
  {
    var next := Step(st, line);
    assert next == Packer(st.chunks + [Join(st.pending, Newline)], [line], LineSize(line));
    assert Flush(next) == Flush(st) + [line];
    JoinAppend(Flush(st), line, Newline);
  }

  /** Appending `line` to the pending chunk. */
  lemma PackJoin(st: Packer, line: string)
    requires |st.pending| > 0
    requires st.size + LineSize(line) <= MaxByteLength
    ensures |Step(st, line).pending| > 0
    ensures Join(Flush(Step(st, line)), Newline) == Join(Flush(st), Newline) + Newline + line
  {
    var next := Step(st, line);
    assert next == Packer(st.chunks, st.pending + [line], st.size + LineSize(line));
    var joined := Join(st.pending, Newline);
    JoinAppend(st.pending, line, Newline);
    assert Flush(next) == st.chunks + [joined + Newline + line];
    assert Flush(st) == st.chunks + [joined];
    if |st.chunks| > 0 {
      JoinAppend(st.chunks, joined + Newline + line, Newline);
      JoinAppend(st.chunks, joined, Newline);
    }
  }

  lemma {:induction false} ScanJoin(lines: seq<string>)
    requires |lines| > 0
    requires forall i :: 0 <= i < |lines| ==> LineSize(lines[i]) <= MaxByteLength
    ensures |Scan(lines).pending| > 0
    ensures Join(Flush(Scan(lines)), Newline) == Join(lines, Newline)
  {
    if |lines| == 1 {
      ScanOne(lines);
    } else {
      var init, last := lines[..|lines| - 1], lines[|lines| - 1];
      assert init + [last] == lines;
      forall i | 0 <= i < |init| ensures LineSize(init[i]) <= MaxByteLength {
        assert init[i] == lines[i];
      }
      ScanJoin(init);
      var st := Scan(init);
      assert Scan(lines) == Step(st, last);
      StepJoin(st, last, init);
    }
  }

  lemma ScanOne(lines: seq<string>)
    requires |lines| == 1 && LineSize(lines[0]) <= MaxByteLength
    ensures |Scan(lines).pending| > 0
    ensures Join(Flush(Scan(lines)), Newline) == Join(lines, Newline)
  {
    var line := lines[0];
    assert lines == [line] && lines[..0] == [];
    assert Scan(lines) == Step(Start, line);
    assert Step(Start, line) == Packer([], [line], LineSize(line));
    assert Flush(Packer([], [line], LineSize(line))) == [Join([line], Newline)];
  }

  lemma {:induction false} ScanCount(lines: seq<string>)
    requires forall i :: 0 <= i < |lines| ==> LineSize(lines[i]) <= MaxByteLength
    ensures |Scan(lines).chunks| + |Scan(lines).pending| <= |lines|
  {
    if |lines| > 0 {
      var init := lines[..|lines| - 1];
      assert forall i :: 0 <= i < |init| ==> init[i] == lines[i];
      ScanCount(init);
      var st := Scan(init);
      if st.size + LineSize(lines[|lines| - 1]) > MaxByteLength {
        assert |st.pending| > 0;
      }
    }
  }

  /**
    When no line is too big on its own, joining the chunks with '\n' gives the
    text back: lines are neither lost, duplicated, reordered nor cut.
   */
  lemma ChunksRebuildContent(content: string)
    requires NoLongLine(content)
    ensures Join(Chunk(content), Newline) == content
    ensures |Chunk(content)| <= |content| + 1
  {
    var lines := Split(content, Newline);
    ScanJoin(lines);
    ScanCount(lines);
    JoinSplit(content, Newline);
    SplitCount(content, Newline);
  }

  // ---------------------------------------------------------------------------
  // Greedy packing

  /** The first line of a chunk: the text before its first '\n'. */
  function FirstLine(chunk: string): string
  {
    Split(chunk, Newline)[0]
  }

  /** `next` opens with a line that would have pushed `chunk`'s running size past the budget. */
  predicate ClosedBefore(chunk: string, next: string)
  {
    Utf8Len(chunk) + 1 + LineSize(FirstLine(next)) > MaxByteLength
  }

  /** Every chunk of the list was closed only because the next one's first line did not fit. */
  predicate AllClosed(chunks: seq<string>)
  {
    forall k :: 0 <= k < |chunks| - 1 ==> ClosedBefore(chunks[k], chunks[k + 1])
  }

  /**
    What the loop keeps true when no line is too big: neighbouring emitted
    chunks were closed only because the next line did not fit, the pending
    lines opened after the last emitted chunk for the same reason, and no
    pending line holds a newline.
   */
  predicate Greedy(st: Packer)
  {
    && AllClosed(st.chunks)
    && (|st.chunks| > 0 ==> |st.pending| > 0)
    && (|st.chunks| > 0 ==> Utf8Len(st.chunks[|st.chunks| - 1]) + 1 + LineSize(st.pending[0]) > MaxByteLength)
    && (forall i :: 0 <= i < |st.pending| ==> Lacks(st.pending[i], '\n'))
  }

  /** Appending a chunk that the last one was closed before keeps every neighbour closed. */
  lemma AppendClosed(chunks: seq<string>, next: string)
    requires AllClosed(chunks)
    requires |chunks| > 0 ==> ClosedBefore(chunks[|chunks| - 1], next)
    ensures AllClosed(chunks + [next])
  {
    var all := chunks + [next];
    forall k | 0 <= k < |all| - 1
      ensures ClosedBefore(all[k], all[k + 1])
    {
      if k < |chunks| - 1 {
        assert all[k] == chunks[k] && all[k + 1] == chunks[k + 1];
      } else {
        assert all[k] == chunks[|chunks| - 1] && all[k + 1] == next;
      }
    }
  }

  /** The first line of the joined pending lines is the first pending line. */
  lemma FirstLineOfJoin(lines: seq<string>)
    requires |lines| > 0 && Lacks(lines[0], '\n')
    ensures FirstLine(Join(lines, Newline)) == lines[0]
  {
    assert Newline == ['\n'];
    FirstPieceOfJoin(lines, '\n');
  }

  lemma StepGreedy(st: Packer, line: string)
    requires Valid(st) && Greedy(st)
    requires Lacks(line, '\n') && LineSize(line) <= MaxByteLength
    ensures Greedy(Step(st, line))
  {
    if st.size + LineSize(line) > MaxByteLength {
      assert |st.pending| > 0;
      CloseGreedy(st, line);
    } else {
      var next := Step(st, line);
      assert next == Packer(st.chunks, st.pending + [line], st.size + LineSize(line));
      assert |st.pending| > 0 ==> next.pending[0] == st.pending[0];
    }
  }

  /** Closing: the pending chunk is emitted because `line` would not fit after it. */
  lemma CloseGreedy(st: Packer, line: string)
    requires Greedy(st) && |st.pending| > 0 && st.size == Charge(st.pending)
    requires Lacks(line, '\n') && LineSize(line) <= MaxByteLength < st.size + LineSize(line)
    ensures Greedy(Step(st, line))
  {
    var joined := Join(st.pending, Newline);
    assert Step(st, line) == Packer(st.chunks + [joined], [line], LineSize(line));
    ChargeJoin(st.pending);
    FirstLineOfJoin(st.pending);
    AppendClosed(st.chunks, joined);
  }

  lemma {:induction false} ScanGreedy(lines: seq<string>)
    requires forall i :: 0 <= i < |lines| ==> Lacks(lines[i], '\n') && LineSize(lines[i]) <= MaxByteLength
    ensures Greedy(Scan(lines))
  {
    if |lines| > 0 {
      var init := lines[..|lines| - 1];
      assert forall i :: 0 <= i < |init| ==> init[i] == lines[i];
      ScanGreedy(init);
      ScanValid(init);
      StepGreedy(Scan(init), lines[|lines| - 1]);
    }
  }

  /**
    When no line is too big on its own, the packing is greedy: each chunk was
    closed only because the first line of the next one would have pushed its
    running size past `MaxByteLength`.
   */
  lemma ChunksAreGreedy(content: string)
    requires NoLongLine(content)
    ensures forall k :: 0 <= k < |Chunk(content)| - 1 ==> ClosedBefore(Chunk(content)[k], Chunk(content)[k + 1])
  {
    var lines := Split(content, Newline);
    assert Newline == ['\n'];
    SplitPiecesLack(content, '\n');
    ScanGreedy(lines);
    ScanJoin(lines);
    var st := Scan(lines);
    var joined := Join(st.pending, Newline);
    assert Chunk(content) == st.chunks + [joined];
    FirstLineOfJoin(st.pending);
    AppendClosed(st.chunks, joined);
  }

  /** Every emitted chunk fits with its newline charge: its running size was at most the budget. */
  predicate PackedFit(chunks: seq<string>)
  {
    forall k :: 0 <= k < |chunks| ==> Utf8Len(chunks[k]) + 1 <= MaxByteLength
  }

  lemma StepPackedFit(st: Packer, line: string)
    requires st.size == Charge(st.pending) <= MaxByteLength
    requires PackedFit(st.chunks) && LineSize(line) <= MaxByteLength
    ensures PackedFit(Step(st, line).chunks)
  {
    if st.size + LineSize(line) > MaxByteLength {
      assert |st.pending| > 0;
      var joined := Join(st.pending, Newline);
      assert Step(st, line).chunks == st.chunks + [joined];
      ChargeJoin(st.pending);
      AppendFit(st.chunks, joined);
    } else {
      assert Step(st, line).chunks == st.chunks;
    }
  }

  lemma AppendFit(chunks: seq<string>, next: string)
    requires PackedFit(chunks) && Utf8Len(next) + 1 <= MaxByteLength
    ensures PackedFit(chunks + [next])
  {
    assert forall k :: 0 <= k < |chunks| ==> (chunks + [next])[k] == chunks[k];
  }

  lemma {:induction false} ScanPackedFit(lines: seq<string>)
    requires forall i :: 0 <= i < |lines| ==> LineSize(lines[i]) <= MaxByteLength
    ensures PackedFit(Scan(lines).chunks)
  {
    if |lines| > 0 {
      var init := lines[..|lines| - 1];
      assert forall i :: 0 <= i < |init| ==> init[i] == lines[i];
      ScanPackedFit(init);
      ScanValid(init);
      StepPackedFit(Scan(init), lines[|lines| - 1]);
    }
  }

  /**
    When no line is too big on its own, no chunk is packed past the budget:
    its running size, its bytes plus one, is at most `MaxByteLength`, so a
    packed chunk is at most 1999 bytes.
   */
  lemma ChunksRunningSizeFits(content: string)
    requires NoLongLine(content)
    ensures forall k :: 0 <= k < |Chunk(content)| ==> Utf8Len(Chunk(content)[k]) + 1 <= MaxByteLength
  {
    var lines := Split(content, Newline);
    ScanPackedFit(lines);
    ScanValid(lines);
    var st := Scan(lines);
    if |st.pending| > 0 {
      ChargeJoin(st.pending);
      AppendFit(st.chunks, Join(st.pending, Newline));
    }
  }

  // ---------------------------------------------------------------------------
  // Chunk count

  lemma StepCharge(st: Packer, line: string)
    requires Valid(st)
    ensures Charge(Flush(Step(st, line))) >= Charge(Flush(st)) + LineSize(line)
  {
    var lineSize := LineSize(line);
    var next := Step(st, line);
    if lineSize > MaxByteLength {
      assert Flush(next) == Flush(st) + Slices(line);
      ChargeConcat(Flush(st), Slices(line));
      SlicesCharge(line);
    } else if st.size + lineSize > MaxByteLength {
      assert Flush(next) == Flush(st) + [line];
      ChargeConcat(Flush(st), [line]);
      assert [line][..0] == [];
    } else {
      PackChargeStep(st, line);
    }
  }

  /** Appending a line that fits adds exactly its line size to the flushed charge. */
  lemma PackChargeStep(st: Packer, line: string)
    requires Valid(st)
    ensures Charge(Flush(st.(pending := st.pending + [line], size := st.size + LineSize(line))))
         == Charge(Flush(st)) + LineSize(line)
  {
    var p := st.pending + [line];
    var joined := Join(p, Newline);
    var flushed := st.chunks + [joined];
    ChargeConcat(st.chunks, [joined]);
    assert [joined][..0] == [];
    assert Charge([joined]) == LineSize(joined);
    ChargeJoin(p);
    assert (st.pending + [line])[..|st.pending|] == st.pending;
    assert Charge(p) == Charge(st.pending) + LineSize(line);
    if |st.pending| > 0 {
      var old_joined := Join(st.pending, Newline);
      ChargeConcat(st.chunks, [old_joined]);
      assert [old_joined][..0] == [];
      ChargeJoin(st.pending);
    }
  }

  lemma {:induction false} ScanCharge(lines: seq<string>)
    ensures Charge(Flush(Scan(lines))) >= Charge(lines)
  {
    if |lines| > 0 {
      var init := lines[..|lines| - 1];
      ScanCharge(init);
      ScanValid(init);
      StepCharge(Scan(init), lines[|lines| - 1]);
    }
  }

  /**
    Chunks hold every byte of the text: their number is at least the text's
    size (plus one) over `MaxByteLength + 1`, so a text over the budget always
    becomes two chunks or more.
   */
  lemma ChunkCountLowerBound(content: string)
    ensures |Chunk(content)| * (MaxByteLength + 1) >= Utf8Len(content) + 1
    ensures Utf8Len(content) > MaxByteLength ==> |Chunk(content)| >= 2
  {
    var lines := Split(content, Newline);
    ScanCharge(lines);
    ChargeJoin(lines);
    JoinSplit(content, Newline);
    ChargeOfFittingChunks(Chunk(content));
  }

  /**
    One byte over the budget can give three chunks, not two: an empty line, a
    line of 1999 ASCII code points and another empty line weigh 2001 bytes but
    the greedy packer must close a chunk before and after the long line.
   */
  lemma OneByteOverCanGiveThreeChunks(line: string)
    requires |line| == 1999 && IsAscii(line) && Lacks(line, '\n')
    ensures Utf8Len("\n" + line + "\n") == MaxByteLength + 1
    ensures Chunk("\n" + line + "\n") == ["", line, ""]
  {
    AsciiUtf8Len(line);
    NewlineIsOneByte();
    Utf8LenConcat("\n", line);
    Utf8LenConcat("\n" + line, "\n");
    ThreeLines(line);
    ThreeLinesScan(line);
  }

  lemma ThreeLines(line: string)
    requires Lacks(line, '\n')
    ensures Split("\n" + line + "\n", Newline) == ["", line, ""]
  {
    var content := "\n" + line + "\n";
    assert Lacks("", '\n');
    assert content == "" + ['\n'] + (line + "\n");
    SplitAtFirst("", '\n', line + "\n");
    assert line + "\n" == line + ['\n'] + "";
    SplitAtFirst(line, '\n', "");
  }

  lemma ThreeLinesScan(line: string)
    requires Utf8Len(line) == 1999
    ensures Scan(["", line, ""]) == Packer(["", line], [""], 1)
  {
    assert LineSize("") == 1 by {
      assert Utf8Len("") == 0;
    }
    var lines := ["", line, ""];
    assert lines[..2] == ["", line] && ["", line][..1] == [""] && [""][..0] == [];
    assert Scan([""]) == Packer([], [""], 1);
    assert Join([""], Newline) == "";
    assert Scan(["", line]) == Packer([""], [line], 2000);
    assert Join([line], Newline) == line;
  }
}

=== FILE: signal.dfy ===
/**
  `NotificationService._get_signal_level` (notification.py:244-267): a
  first-match rule table over the advice text and the integer sentiment score.
 */
module Signal {

  import opened Wrappers

  datatype Level = StrongBuy | Buy | Hold | Watch | Reduce | Sell

  /** The (signal text, emoji, tag) triple the source returns for a level. */
  function Display(level: Level): (string, string, string)
  {
    match level
    case StrongBuy => ("强烈买入", "💚", "强买")
    case Buy => ("买入", "🟢", "买入")
    case Hold => ("持有", "🟡", "持有")
    case Watch => ("观望", "⚪", "观望")
    case Reduce => ("减仓", "🟠", "减仓")
    case Sell => ("卖出", "🔴", "卖出")
  }

  /**
    `_get_signal_level`, branch by branch, including the final `else`. The
    if-chain is the first match over the rule table, and some guarded rule
    always matches: the score bands cover every integer, so the final `else`
    is unreachable.
   */
  function SignalLevel(advice: string, score: int): (level: Level)
    ensures FirstMatch(Rules, advice, score) == Some(level)
  {
    FirstMatchAt(Rules, 0, advice, score);
    FirstMatchAt(Rules, 1, advice, score);
    FirstMatchAt(Rules, 2, advice, score);
    FirstMatchAt(Rules, 3, advice, score);
    FirstMatchAt(Rules, 4, advice, score);
    FirstMatchAt(Rules, 5, advice, score);
    assert Rules[0..] == Rules && Rules[6..] == [];
    if advice in ["强烈买入"] || score >= 80 then StrongBuy
    else if advice in ["买入", "加仓"] || score >= 65 then Buy
    else if advice in ["持有"] || 55 <= score < 65 then Hold
    else if advice in ["观望"] || 45 <= score < 55 then Watch
    else if advice in ["减仓"] || 35 <= score < 45 then Reduce
    else if advice in ["卖出", "强烈卖出"] || score < 35 then Sell
    else Watch
  }

  /**
    `_get_signal_level(result)`: the (signal text, emoji, tag) triple. A strong
    buy is announced exactly for the advice '强烈买入' or a score of 80 or more,
    and an advice outside every list is shown by its score band.
   */
  function GetSignalLevel(advice: string, score: int): (r: (string, string, string))
    ensures r.0 == "强烈买入" <==> advice == "强烈买入" || score >= 80
    ensures !KnownAdvice(advice) ==> r == Display(ScoreBand(score))
    ensures FirstMatch(Rules, advice, score).Some? && r == Display(FirstMatch(Rules, advice, score).value)
  {
    StrongBuySignal(advice, score);
    var level := SignalLevel(advice, score);
    assert !KnownAdvice(advice) ==> level == ScoreBand(score) by {
      if !KnownAdvice(advice) {
        UnknownAdviceFollowsScore(advice, score);
      }
    }
    Display(level)
  }

  /** The score condition of a rule: `lo <= score` and/or `score < hi`. */
  datatype Band = Band(lo: Option<int>, hi: Option<int>)
  {
    predicate Contains(score: int)
    {
      (lo.None? || lo.value <= score) && (hi.None? || score < hi.value)
    }
  }

  /** One row of the rule table: the advice texts and the score band that select a level. */
  datatype Rule = Rule(advices: seq<string>, band: Band, level: Level)

  /** The six guarded rules, in the order the source tries them. */
  const Rules: seq<Rule> := [
    Rule(["强烈买入"], Band(Some(80), None), StrongBuy),
    Rule(["买入", "加仓"], Band(Some(65), None), Buy),
    Rule(["持有"], Band(Some(55), Some(65)), Hold),
    Rule(["观望"], Band(Some(45), Some(55)), Watch),
    Rule(["减仓"], Band(Some(35), Some(45)), Reduce),
    Rule(["卖出", "强烈卖出"], Band(None, Some(35)), Sell)
  ]

  /** The level of the first rule whose advice list or score band matches, if any. */
  function FirstMatch(rules: seq<Rule>, advice: string, score: int): Option<Level>
  {
    if |rules| == 0 then None
    else if advice in rules[0].advices || rules[0].band.Contains(score) then Some(rules[0].level)
    else FirstMatch(rules[1..], advice, score)
  }

  /** The score-only classification: the level a text outside every advice list gets. */
  function ScoreBand(score: int): Level
  {
    if score >= 80 then StrongBuy
    else if score >= 65 then Buy
    else if score >= 55 then Hold
    else if score >= 45 then Watch
    else if score >= 35 then Reduce
    else Sell
  }

  /** Levels from most bearish (0) to most bullish (5). */
  function Rank(level: Level): nat
  {
    match level
    case Sell => 0
    case Reduce => 1
    case Watch => 2
    case Hold => 3
    case Buy => 4
    case StrongBuy => 5
  }

  predicate KnownAdvice(advice: string)
  {
    exists i :: 0 <= i < |Rules| && advice in Rules[i].advices
  }

  /** Trying the table from row `k` on: row `k` if it matches, else the rows after it. */
  lemma FirstMatchAt(rules: seq<Rule>, k: nat, advice: string, score: int)
    requires k < |rules|
    ensures FirstMatch(rules[k..], advice, score) ==
      if advice in rules[k].advices || rules[k].band.Contains(score) then Some(rules[k].level)
      else FirstMatch(rules[k + 1..], advice, score)
  {
    assert rules[k..][1..] == rules[k + 1..];
  }

  /** A score of 80 or more is a strong buy whatever the advice says, and so is the advice '强烈买入'. */
  lemma StrongBuySignal(advice: string, score: int)
    ensures SignalLevel(advice, score) == StrongBuy <==> advice == "强烈买入" || score >= 80
  {
  }

  /** An advice text outside every list is classified by its score alone. */
  lemma UnknownAdviceFollowsScore(advice: string, score: int)
    requires !KnownAdvice(advice)
    ensures SignalLevel(advice, score) == ScoreBand(score)
  {
    assert advice !in Rules[0].advices && advice !in Rules[1].advices && advice !in Rules[2].advices;
    assert advice !in Rules[3].advices && advice !in Rules[4].advices && advice !in Rules[5].advices;
  }

  /** A higher score never gives a more bearish score-only level. */
  lemma ScoreBandMonotone(low: int, high: int)
    requires low <= high
    ensures Rank(ScoreBand(low)) <= Rank(ScoreBand(high))
  {
  }
}

=== FILE: text.dfy ===
/**
  Python's `str.split(sep)`, `sep.join(parts)`, `s[:n]` and `s.startswith(p)`
  on code-point strings, with the facts the chunkers rely on.
 */
module Text {

  import opened Utf8

  /** `sep.join(parts)`; the join of no parts is the empty string. */
  function Join(parts: seq<string>, sep: string): string
  {
    if |parts| == 0 then ""
    else if |parts| == 1 then parts[0]
    else Join(parts[..|parts| - 1], sep) + sep + parts[|parts| - 1]
  }

  /** `s.split(sep)`: cuts at every occurrence of `sep`, scanning left to right. */
  function Split(s: string, sep: string): (parts: seq<string>)
    requires |sep| > 0
    ensures |parts| >= 1
    decreases |s|
  {
    if |s| < |sep| then [s]
    else if s[..|sep|] == sep then [""] + Split(s[|sep|..], sep)
    else
      var rest := Split(s[1..], sep);
      [[s[0]] + rest[0]] + rest[1..]
  }

  /** `s[:n]`: the first `n` code points, or all of `s` when it is shorter. */
  function Take(s: string, n: nat): (r: string)
    ensures |r| == if |s| <= n then |s| else n
    ensures r <= s
  {
    if |s| <= n then s else s[..n]
  }

  /** `s.startswith(p)`. */
  predicate StartsWith(s: string, p: string)
  {
    p <= s
  }

  /** A text in which the code point `c` does not occur. */
  predicate Lacks(s: string, c: char)
  {
    forall i :: 0 <= i < |s| ==> s[i] != c
  }

  lemma JoinAppend(parts: seq<string>, last: string, sep: string)
    requires |parts| > 0
    ensures Join(parts + [last], sep) == Join(parts, sep) + sep + last
  {
    assert (parts + [last])[..|parts|] == parts;
  }

  /** Joining a head onto a non-empty tail puts one separator between them. */
  lemma {:induction false} JoinCons(head: string, tail: seq<string>, sep: string)
    requires |tail| > 0
    ensures Join([head] + tail, sep) == head + sep + Join(tail, sep)
    decreases |tail|
  {
    if |tail| == 1 {
      assert [head] + tail == [head, tail[0]];
      assert [head, tail[0]][..1] == [head];
    } else {
      var init := tail[..|tail| - 1];
      assert [head] + tail == ([head] + init) + [tail[|tail| - 1]];
      JoinAppend([head] + init, tail[|tail| - 1], sep);
      JoinCons(head, init, sep);
      JoinAppend(init, tail[|tail| - 1], sep);
      assert init + [tail[|tail| - 1]] == tail;
    }
  }

  /** Joining two non-empty lists of parts puts one separator between their joins. */
  lemma {:induction false} JoinConcat(a: seq<string>, b: seq<string>, sep: string)
    requires |a| > 0 && |b| > 0
    ensures Join(a + b, sep) == Join(a, sep) + sep + Join(b, sep)
    decreases |b|
  {
    if |b| == 1 {
      JoinAppend(a, b[0], sep);
      assert a + b == a + [b[0]];
    } else {
      var init := b[..|b| - 1];
      var last := b[|b| - 1];
      assert a + b == (a + init) + [last];
      assert b == init + [last];
      JoinAppend(a + init, last, sep);
      JoinConcat(a, init, sep);
      JoinAppend(init, last, sep);
    }
  }

  /** Joining the pieces of a split with the same separator gives the text back. */
  lemma {:induction false} JoinSplit(s: string, sep: string)
    requires |sep| > 0
    ensures Join(Split(s, sep), sep) == s
    decreases |s|
  {
    if |s| < |sep| {
    } else if s[..|sep|] == sep {
      var rest := Split(s[|sep|..], sep);
      assert Split(s, sep) == [""] + rest;
      JoinSplit(s[|sep|..], sep);
      JoinCons("", rest, sep);
      assert s == sep + s[|sep|..];
    } else {
      var rest := Split(s[1..], sep);
      var first := [s[0]] + rest[0];
      assert Split(s, sep) == [first] + rest[1..];
      JoinSplit(s[1..], sep);
      JoinSplitStep(s[0], rest, sep);
      assert s == [s[0]] + s[1..];
    }
  }

  /** Prepending a code point to the first piece prepends it to the join. */
  lemma JoinSplitStep(c: char, rest: seq<string>, sep: string)
    requires |rest| > 0
    ensures Join([[c] + rest[0]] + rest[1..], sep) == [c] + Join(rest, sep)
  {
    if |rest| > 1 {
      JoinCons([c] + rest[0], rest[1..], sep);
      JoinCons(rest[0], rest[1..], sep);
      assert [rest[0]] + rest[1..] == rest;
    } else {
      assert rest == [rest[0]];
    }
  }

  /** Splitting on one code point leaves no piece that contains it. */
  lemma {:induction false} SplitPiecesLack(s: string, c: char)
    ensures forall i :: 0 <= i < |Split(s, [c])| ==> Lacks(Split(s, [c])[i], c)
    decreases |s|
  {
    var sep := [c];
    if |s| < 1 {
    } else if s[..1] == sep {
      SplitPiecesLack(s[1..], c);
    } else {
      SplitPiecesLack(s[1..], c);
      var rest := Split(s[1..], sep);
      assert s[0] != c by {
        assert s[..1] == [s[0]];
      }
      assert Lacks([s[0]] + rest[0], c);
    }
  }

  /** A split yields at most one more piece than the text has code points. */
  lemma {:induction false} SplitCount(s: string, sep: string)
    requires |sep| > 0
    ensures |Split(s, sep)| <= |s| + 1
    decreases |s|
  {
    if |s| < |sep| {
    } else if s[..|sep|] == sep {
      SplitCount(s[|sep|..], sep);
    } else {
      SplitCount(s[1..], sep);
    }
  }

  /** The total UTF-8 size of a list of parts. */
  function SumUtf8(parts: seq<string>): nat
  {
    if |parts| == 0 then 0 else SumUtf8(parts[..|parts| - 1]) + Utf8Len(parts[|parts| - 1])
  }

  /** One more separator adds its size once. */
  lemma MulSucc(n: int, k: int)
    ensures (n + 1) * k == n * k + k
  {
  }

  /** The byte size of a join: every part plus one separator between neighbours. */
  lemma {:induction false} Utf8LenJoin(parts: seq<string>, sep: string)
    requires |parts| > 0
    ensures Utf8Len(Join(parts, sep)) == SumUtf8(parts) + (|parts| - 1) * Utf8Len(sep)
    decreases |parts|
  {
    if |parts| > 1 {
      var init, last := parts[..|parts| - 1], parts[|parts| - 1];
      assert Join(parts, sep) == Join(init, sep) + sep + last;
      assert SumUtf8(parts) == SumUtf8(init) + Utf8Len(last);
      Utf8LenJoin(init, sep);
      Utf8LenConcat(Join(init, sep), sep);
      Utf8LenConcat(Join(init, sep) + sep, last);
      MulSucc(|init| - 1, Utf8Len(sep));
    }
  }

  /** The length of a join, in code points. */
  lemma {:induction false} LengthJoin(parts: seq<string>, sep: string)
    requires |parts| > 0
    ensures |Join(parts, sep)| == SumLength(parts) + (|parts| - 1) * |sep|
    decreases |parts|
  {
    if |parts| > 1 {
      var init := parts[..|parts| - 1];
      assert Join(parts, sep) == Join(init, sep) + sep + parts[|parts| - 1];
      LengthJoin(init, sep);
      MulSucc(|init| - 1, |sep|);
    }
  }

  /** The total length of a list of parts, in code points. */
  function SumLength(parts: seq<string>): nat
  {
    if |parts| == 0 then 0 else SumLength(parts[..|parts| - 1]) + |parts[|parts| - 1]|
  }

  /** A piece without the separator code point, then the separator: the piece comes out first. */
  lemma {:induction false} SplitAtFirst(p: string, c: char, q: string)
    requires Lacks(p, c)
    ensures Split(p + [c] + q, [c]) == [p] + Split(q, [c])
    decreases |p|
  {
    var s := p + [c] + q;
    if |p| == 0 {
      assert s == [c] + q;
      assert s[..1] == [c];
      assert s[1..] == q;
    } else {
      assert s[..1] == [p[0]];
      assert s[1..] == p[1..] + [c] + q;
      SplitAtFirst(p[1..], c, q);
      assert [p[0]] + p[1..] == p;
    }
  }

  /** A text without the separator code point splits into itself alone. */
  lemma {:induction false} SplitLacking(p: string, c: char)
    requires Lacks(p, c)
    ensures Split(p, [c]) == [p]
    decreases |p|
  {
    if |p| > 0 {
      assert p[..1] == [p[0]];
      SplitLacking(p[1..], c);
      assert [p[0]] + p[1..] == p;
    }
  }

  /** The first piece of a split join is the first part, when that part has no separator. */
  lemma FirstPieceOfJoin(parts: seq<string>, c: char)
    requires |parts| > 0 && Lacks(parts[0], c)
    ensures Split(Join(parts, [c]), [c])[0] == parts[0]
  {
    if |parts| == 1 {
      SplitLacking(parts[0], c);
    } else {
      JoinCons(parts[0], parts[1..], [c]);
      assert [parts[0]] + parts[1..] == parts;
      SplitAtFirst(parts[0], c, Join(parts[1..], [c]));
    }
  }
}

=== FILE: utf8.dfy ===
/**
  UTF-8 sizes of Unicode text.

  A Python `str` is modelled as a Dafny `string`, i.e. a sequence of Unicode
  scalar values (code points).  `content.encode('utf-8')` is modelled by
  `Encode`; the code only ever looks at the LENGTH of the encoding, which is
  `Utf8Len`.  Byte counts per code point follow section 3 of RFC 3629.
 */
module Utf8 {

  import opened Wrappers

  newtype byte = b: int | 0 <= b < 256

  /** Number of bytes UTF-8 uses for the code point `c`. */
  function CodePointBytes(c: char): (n: nat)
    ensures 1 <= n <= 4
    ensures n == 1 <==> c as int < 0x80
  {
    if c as int < 0x80 then 1
    else if c as int < 0x800 then 2
    else if c as int < 0x1_0000 then 3
    else 4
  }

  /** The UTF-8 encoding of one code point (RFC 3629, section 3). */
  function EncodeChar(c: char): (bs: seq<byte>)
    ensures |bs| == CodePointBytes(c)
    ensures 0x80 <= c as int ==> forall i :: 1 <= i < |bs| ==> 0x80 <= bs[i] < 0xC0
  {
    var v := c as int;
    if v < 0x80 then
      [v as byte]
    else if v < 0x800 then
      [(0xC0 + v / 0x40) as byte, (0x80 + v % 0x40) as byte]
    else if v < 0x1_0000 then
      [(0xE0 + v / 0x1000) as byte, (0x80 + (v / 0x40) % 0x40) as byte, (0x80 + v % 0x40) as byte]
    else
      [(0xF0 + v / 0x4_0000) as byte, (0x80 + (v / 0x1000) % 0x40) as byte,
       (0x80 + (v / 0x40) % 0x40) as byte, (0x80 + v % 0x40) as byte]
  }

  /** `s.encode('utf-8')`. */
  function Encode(s: string): seq<byte>
  {
    if |s| == 0 then [] else Encode(s[..|s| - 1]) + EncodeChar(s[|s| - 1])
  }

  /** `len(s.encode('utf-8'))`, computed code point by code point. */
  function Utf8Len(s: string): (n: nat)
    ensures |s| <= n <= 4 * |s|
  {
    if |s| == 0 then 0 else Utf8Len(s[..|s| - 1]) + CodePointBytes(s[|s| - 1])
  }

  /** A text made only of ASCII code points. */
  predicate IsAscii(s: string)
  {
    forall i :: 0 <= i < |s| ==> s[i] as int < 0x80
  }

  /** `Utf8Len` is the length of the actual encoding. */
  lemma {:induction false} EncodeLength(s: string)
    ensures |Encode(s)| == Utf8Len(s)
  {
    if |s| > 0 {
      EncodeLength(s[..|s| - 1]);
    }
  }

  /** The byte size of a concatenation is the sum of the byte sizes. */
  lemma {:induction false} Utf8LenConcat(a: string, b: string)
    ensures Utf8Len(a + b) == Utf8Len(a) + Utf8Len(b)
    decreases |b|
  {
    if |b| > 0 {
      assert (a + b)[..|a + b| - 1] == a + b[..|b| - 1];
      assert (a + b)[|a + b| - 1] == b[|b| - 1];
      Utf8LenConcat(a, b[..|b| - 1]);
    } else {
      assert a + b == a;
    }
  }

  /** Encoding a concatenation encodes each part: no code point straddles a cut. */
  lemma {:induction false} EncodeConcat(a: string, b: string)
    ensures Encode(a + b) == Encode(a) + Encode(b)
    decreases |b|
  {
    if |b| > 0 {
      assert (a + b)[..|a + b| - 1] == a + b[..|b| - 1];
      assert (a + b)[|a + b| - 1] == b[|b| - 1];
      EncodeConcat(a, b[..|b| - 1]);
    } else {
      assert a + b == a;
    }
  }

  /** ASCII text takes one byte per code point. */
  lemma {:induction false} AsciiUtf8Len(s: string)
    requires IsAscii(s)
    ensures Utf8Len(s) == |s|
  {
    if |s| > 0 {
      AsciiUtf8Len(s[..|s| - 1]);
    }
  }

  /** A byte of the form 10xxxxxx. */
  predicate IsContinuation(b: byte) { 0x80 <= b < 0xC0 }

  /** The code point with value `v`, if `v` is a Unicode scalar value. */
  function ScalarOf(v: int): Option<char>
  {
    if 0 <= v < 0xD800 || 0xE000 <= v < 0x11_0000 then Some(v as char) else None
  }

  /** Decodes the code point at the front of `bs` and returns it with its byte count. */
  function DecodeFirst(bs: seq<byte>): (r: Option<(char, nat)>)
    requires |bs| > 0
    ensures r.Some? ==> 1 <= r.value.1 <= |bs|
  {
    var b0 := bs[0] as int;
    if b0 < 0x80 then Some((b0 as char, 1))
    else if 0xC2 <= b0 < 0xE0 && |bs| >= 2 && IsContinuation(bs[1]) then
      match ScalarOf((b0 - 0xC0) * 0x40 + (bs[1] as int - 0x80))
      case Some(c) => Some((c, 2))
      case None => None
    else if 0xE0 <= b0 < 0xF0 && |bs| >= 3 && IsContinuation(bs[1]) && IsContinuation(bs[2]) then
      var v := (b0 - 0xE0) * 0x1000 + (bs[1] as int - 0x80) * 0x40 + (bs[2] as int - 0x80);
      if v < 0x800 then None else
      match ScalarOf(v)
      case Some(c) => Some((c, 3))
      case None => None
    else if 0xF0 <= b0 < 0xF5 && |bs| >= 4 && IsContinuation(bs[1]) && IsContinuation(bs[2]) && IsContinuation(bs[3]) then
      var v := (b0 - 0xF0) * 0x4_0000 + (bs[1] as int - 0x80) * 0x1000 + (bs[2] as int - 0x80) * 0x40 + (bs[3] as int - 0x80);
      if v < 0x1_0000 then None else
      match ScalarOf(v)
      case Some(c) => Some((c, 4))
      case None => None
    else None
  }

  /** The three 6-bit-or-less fields of a three-byte code point. */
  lemma Split3(v: int)
    requires 0x800 <= v < 0x1_0000
    ensures v == (v / 0x1000) * 0x1000 + ((v / 0x40) % 0x40) * 0x40 + v % 0x40
    ensures 0 <= v / 0x1000 < 0x10
  {
    var q := v / 0x40;
    assert v == q * 0x40 + v % 0x40;
    assert q == (q / 0x40) * 0x40 + q % 0x40;
    assert q / 0x40 == v / 0x1000;
  }

  /** The four fields of a four-byte code point. */
  lemma Split4(v: int)
    requires 0x1_0000 <= v < 0x11_0000
    ensures v == (v / 0x4_0000) * 0x4_0000 + ((v / 0x1000) % 0x40) * 0x1000 + ((v / 0x40) % 0x40) * 0x40 + v % 0x40
    ensures 0 <= v / 0x4_0000 < 5
  {
    var q := v / 0x40;
    var p := q / 0x40;
    assert v == q * 0x40 + v % 0x40;
    assert q == p * 0x40 + q % 0x40;
    assert p == (p / 0x40) * 0x40 + p % 0x40;
    assert p == v / 0x1000;
    assert p / 0x40 == v / 0x4_0000;
  }

  /** The decoder reads back exactly the code point the encoder wrote. */
  lemma DecodeEncodeChar(c: char, rest: seq<byte>)
    ensures DecodeFirst(EncodeChar(c) + rest) == Some((c, CodePointBytes(c)))
  {
    var v := c as int;
    var bs := EncodeChar(c) + rest;
    if v < 0x80 {
    } else if v < 0x800 {
      assert bs[0] as int == 0xC0 + v / 0x40;
      assert bs[1] as int == 0x80 + v % 0x40;
    } else if v < 0x1_0000 {
      Split3(v);
      assert bs[0] as int == 0xE0 + v / 0x1000;
      assert bs[1] as int == 0x80 + (v / 0x40) % 0x40;
      assert bs[2] as int == 0x80 + v % 0x40;
    } else {
      Split4(v);
      assert bs[0] as int == 0xF0 + v / 0x4_0000;
      assert bs[1] as int == 0x80 + (v / 0x1000) % 0x40;
      assert bs[2] as int == 0x80 + (v / 0x40) % 0x40;
      assert bs[3] as int == 0x80 + v % 0x40;
    }
  }
  /** Division by a field width of UTF-8 recovers the quotient and remainder a number was built from. */
  lemma DivModOf(q: int, r: int, d: int)
    requires d == 0x40 || d == 0x1000 || d == 0x4_0000
    requires 0 <= r < d
    ensures (q * d + r) / d == q && (q * d + r) % d == r
  {
    if d == 0x40 {
      assert (q * 0x40 + r) / 0x40 == q;
    } else if d == 0x1000 {
      assert (q * 0x1000 + r) / 0x1000 == q;
    } else {
      assert (q * 0x4_0000 + r) / 0x4_0000 == q;
    }
  }

  /** A two-byte sequence the decoder accepts re-encodes to itself. */
  lemma Reencode2(c: char, b0: byte, b1: byte)
    requires 0xC2 <= b0 < 0xE0 && IsContinuation(b1)
    requires c as int == (b0 as int - 0xC0) * 0x40 + (b1 as int - 0x80)
    ensures EncodeChar(c) == [b0, b1]
  {
    DivModOf(b0 as int - 0xC0, b1 as int - 0x80, 0x40);
  }

  /** A three-byte sequence the decoder accepts re-encodes to itself. */
  lemma Reencode3(c: char, b0: byte, b1: byte, b2: byte)
    requires 0xE0 <= b0 < 0xF0 && IsContinuation(b1) && IsContinuation(b2)
    requires c as int == (b0 as int - 0xE0) * 0x1000 + (b1 as int - 0x80) * 0x40 + (b2 as int - 0x80)
    requires 0x800 <= c as int
    ensures EncodeChar(c) == [b0, b1, b2]
  {
    var v, x0, x1, x2 := c as int, b0 as int - 0xE0, b1 as int - 0x80, b2 as int - 0x80;
    var hi := x0 * 0x40 + x1;
    assert v == hi * 0x40 + x2;
    DivModOf(hi, x2, 0x40);
    DivModOf(x0, x1, 0x40);
    DivModOf(x0, x1 * 0x40 + x2, 0x1000);
  }

  /** A four-byte sequence the decoder accepts re-encodes to itself. */
  lemma Reencode4(c: char, b0: byte, b1: byte, b2: byte, b3: byte)
    requires 0xF0 <= b0 < 0xF5 && IsContinuation(b1) && IsContinuation(b2) && IsContinuation(b3)
    requires c as int == (b0 as int - 0xF0) * 0x4_0000 + (b1 as int - 0x80) * 0x1000 + (b2 as int - 0x80) * 0x40 + (b3 as int - 0x80)
    requires 0x1_0000 <= c as int
    ensures EncodeChar(c) == [b0, b1, b2, b3]
  {
    var v, x0, x1, x2, x3 := c as int, b0 as int - 0xF0, b1 as int - 0x80, b2 as int - 0x80, b3 as int - 0x80;
    var mid := x0 * 0x40 + x1;
    var hi := mid * 0x40 + x2;
    assert v == hi * 0x40 + x3;
    DivModOf(hi, x3, 0x40);
    DivModOf(mid, x2, 0x40);
    assert v == mid * 0x1000 + (x2 * 0x40 + x3);
    DivModOf(mid, x2 * 0x40 + x3, 0x1000);
    DivModOf(x0, x1, 0x40);
    DivModOf(x0, x1 * 0x1000 + x2 * 0x40 + x3, 0x4_0000);
  }

  /** The decoder accepts only the encoder's own output: what it reads re-encodes to the bytes read. */
  lemma EncodeDecodeFirst(bs: seq<byte>)
    requires |bs| > 0 && DecodeFirst(bs).Some?
    ensures EncodeChar(DecodeFirst(bs).value.0) == bs[..DecodeFirst(bs).value.1]
  {
    var c, n := DecodeFirst(bs).value.0, DecodeFirst(bs).value.1;
    if n == 2 {
      assert bs[..2] == [bs[0], bs[1]];
      Reencode2(c, bs[0], bs[1]);
    } else if n == 3 {
      assert bs[..3] == [bs[0], bs[1], bs[2]];
      Reencode3(c, bs[0], bs[1], bs[2]);
    } else if n == 4 {
      assert bs[..4] == [bs[0], bs[1], bs[2], bs[3]];
      Reencode4(c, bs[0], bs[1], bs[2], bs[3]);
    }
  }

  /** `bs.decode('utf-8')`: `None` on a malformed, overlong or surrogate sequence. */
  function Decode(bs: seq<byte>): Option<string>
    decreases |bs|
  {
    if |bs| == 0 then Some([])
    else match DecodeFirst(bs)
      case None => None
      case Some((c, n)) =>
        match Decode(bs[n..])
        case None => None
        case Some(rest) => Some([c] + rest)
  }

  /** Decoding an encoding gives the text back. */
  lemma {:induction false} DecodeEncode(s: string)
    ensures Decode(Encode(s)) == Some(s)
    decreases |s|
  {
    if |s| > 0 {
      var c, rest := s[0], s[1..];
      assert s == [c] + rest;
      EncodeConcat([c], rest);
      assert Encode([c]) == EncodeChar(c) by {
        assert [c][..0] == [];
      }
      DecodeEncodeChar(c, Encode(rest));
      var bs := Encode(s);
      assert bs[CodePointBytes(c)..] == Encode(rest);
      DecodeEncode(rest);
    }
  }

  /** A successful decoding is a first code point of `n` bytes followed by the decoding of the rest. */
  lemma DecodeCons(bs: seq<byte>) returns (c: char, n: nat, rest: string)
    requires |bs| > 0 && Decode(bs).Some?
    ensures DecodeFirst(bs) == Some((c, n)) && 1 <= n <= |bs|
    ensures Decode(bs[n..]) == Some(rest) && Decode(bs).value == [c] + rest
  {
    c, n := DecodeFirst(bs).value.0, DecodeFirst(bs).value.1;
    rest := Decode(bs[n..]).value;
  }

  /** Encoding a decoding gives the bytes back: only well-formed UTF-8 decodes. */
  lemma {:induction false} EncodeDecode(bs: seq<byte>)
    requires Decode(bs).Some?
    ensures Encode(Decode(bs).value) == bs
    decreases |bs|
  {
    if |bs| > 0 {
      var c, n, rest := DecodeCons(bs);
      EncodeConcat([c], rest);
      assert Encode([c]) == EncodeChar(c) by {
        assert [c][..0] == [];
      }
      EncodeDecodeFirst(bs);
      assert EncodeChar(c) == bs[..n];
      EncodeDecode(bs[n..]);
      assert Encode(rest) == bs[n..];
      assert bs[..n] + bs[n..] == bs;
    }
  }
}

=== FILE: wechat.dfy ===
/**
  `NotificationService.send_to_wechat` and `_send_single_message`
  (notification.py:761-896): the message-size pipeline from one text to the
  ordered list of webhook messages, and the delivery accounting over them.

  The HTTP call is not modelled: the endpoint's answer to the i-th attempt of
  one call is the parameter `replies(i)`.
 */
module Wechat {

  import opened Wrappers
  import opened Utf8
  import opened Text
  import opened Decimal
  import opened Segmenter
  import opened Paginator

  // ---------------------------------------------------------------------------
  // The message-size pipeline

  /** The messages `send_to_wechat` posts for `content`, in posting order. */
  function Messages(content: string): (msgs: seq<string>)
    ensures |msgs| >= 1
    ensures forall i :: 0 <= i < |msgs| ==> Utf8Len(msgs[i]) <= HardLimit
    ensures Utf8Len(content) <= MaxByteLength ==> msgs == [content]
    ensures Utf8Len(content) > MaxByteLength ==> |msgs| >= 2
  {
    if Utf8Len(content) <= MaxByteLength then
      [content]
    else
      ChunkCountLowerBound(content);
      Paginate(Chunk(content))
  }

  /** What a reader of the posted messages sees once the markers are removed and the parts rejoined. */
  function Reassemble(msgs: seq<string>): string
  {
    Join(Unpaginate(msgs), Newline)
  }

  /**
    A text over the budget is always sent as two or more messages, and message i
    is exactly "(i/N)\n" followed by chunk i (no truncation) as long as N has at
    most 1000 decimal digits.
   */
  lemma LargeTextIsPaginated(content: string)
    requires Utf8Len(content) > MaxByteLength
    requires |Digits(|Chunk(content)|)| <= 1000
    ensures |Messages(content)| == |Chunk(content)| >= 2
    ensures forall i :: 0 <= i < |Messages(content)| ==>
              Messages(content)[i] == Marker(i + 1, |Messages(content)|) + Chunk(content)[i]
  {
    PagesAreMarked(Chunk(content));
  }

  /**
    End to end: when no line is too long for a chunk, removing the page markers
    and joining the messages with '\n' gives back exactly the text that was sent.
   */
  lemma ReassembleMessages(content: string)
    requires NoLongLine(content)
    requires |content| < 1_000_000_000_000
    ensures Reassemble(Messages(content)) == content
  {
    if Utf8Len(content) > MaxByteLength {
      var chunks := Chunk(content);
      ChunksRebuildContent(content);
      assert Pow10(13) == 10_000_000_000_000;
      DigitsBound(|chunks|, 13);
      UnpaginatePaginate(chunks);
    }
  }

  // ---------------------------------------------------------------------------
  // One send

  /**
    The body of the endpoint's HTTP answer: a JSON object with an optional
    integer `errcode`, or anything else. For the latter, `response.json()`
    raises (not JSON) or `.get` raises (JSON that is not an object, such as
    `[]`, `"ok"` or `null`).
   */
  datatype Body = NotAnObject | Json(errcode: Option<int>)

  /** The endpoint's answer to one POST, or the exception `requests.post` raised. */
  datatype Reply = Raised | Response(status: int, body: Body)

  /** What `_send_single_message` does: return a flag or raise. */
  datatype SendResult = Returned(ok: bool) | Threw

  /** `_send_single_message` given the endpoint's reply. */
  function SendSingle(reply: Reply): (r: SendResult)
    ensures r == Returned(true) <==> reply == Response(200, Json(Some(0)))
    ensures r == Threw <==> reply.Raised? || reply == Response(200, NotAnObject)
  {
    match reply
    case Raised => Threw
    case Response(status, body) =>
      if status == 200 then
        match body
        case NotAnObject => Threw   // response.json() or .get raises
        case Json(errcode) => Returned(errcode == Some(0))
      else
        Returned(false)
  }

  /** A send counts as a success: it returned true. */
  predicate Succeeded(reply: Reply)
  {
    SendSingle(reply) == Returned(true)
  }

  /** A classification of replies: delivered, refused by the endpoint, or lost on the way. */
  datatype Outcome = Delivered | RemoteRejected(errcode: Option<int>) | TransportFailed

  function Classify(reply: Reply): Outcome
  {
    match reply
    case Raised => TransportFailed
    case Response(status, body) =>
      if status != 200 then TransportFailed
      else match body
        case NotAnObject => TransportFailed
        case Json(errcode) => if errcode == Some(0) then Delivered else RemoteRejected(errcode)
  }

  /** A send succeeds exactly when the reply is classified as delivered. */
  lemma SucceededIffDelivered(reply: Reply)
    ensures Succeeded(reply) <==> Classify(reply) == Delivered
    ensures Classify(reply).RemoteRejected? ==> SendSingle(reply) == Returned(false)
  {
  }

  // ---------------------------------------------------------------------------
  // The whole call

  /** `success_count` after the first `n` attempts of the sending loop. */
  function Tally(replies: nat -> Reply, n: nat): (count: nat)
    ensures count <= n
  {
    if n == 0 then 0
    else Tally(replies, n - 1) + (match SendSingle(replies(n - 1)) case Returned(true) => 1 case _ => 0)
  }

  /** The loop's verdict: all `n` attempts succeeded exactly when the tally reaches `n`. */
  lemma {:induction false} TallyAll(replies: nat -> Reply, n: nat)
    ensures Tally(replies, n) == n <==> forall i :: 0 <= i < n ==> Succeeded(replies(i))
  {
    if n > 0 {
      TallyAll(replies, n - 1);
    }
  }

  /** The messages posted, in order, and the value `send_to_wechat` returns. */
  datatype Delivery = Delivery(attempts: seq<string>, allSent: bool)

  /**
    `send_to_wechat(content)` when the webhook is `configured` and the i-th
    post is answered by `replies(i)`.
   */
  function SendToWechat(configured: bool, content: string, replies: nat -> Reply): (d: Delivery)
    ensures !configured ==> d == Delivery([], false)
    ensures configured ==> d.attempts == Messages(content)
  {
    if !configured then
      Delivery([], false)
    else if Utf8Len(content) <= MaxByteLength then
      // an exception from the single send is caught and reported as False
      Delivery([content], match SendSingle(replies(0)) case Returned(ok) => ok case Threw => false)
    else
      var msgs := Paginate(Chunk(content));
      Delivery(msgs, Tally(replies, |msgs|) == |msgs|)
  }

  /**
    Every message is attempted, in order, whatever earlier attempts returned or
    raised; the call reports true exactly when every attempt succeeded.
   */
  lemma DeliveryAllOrNothing(content: string, replies: nat -> Reply)
    ensures SendToWechat(true, content, replies).attempts == Messages(content)
    ensures SendToWechat(true, content, replies).allSent <==>
              forall i :: 0 <= i < |Messages(content)| ==> Succeeded(replies(i))
  {
    TallyAll(replies, |Messages(content)|);
  }
}

=== FILE: wrappers.dfy ===
/** The optional-value datatype used by the models of the webhook replies. */
module Wrappers {

  datatype Option<+T> = None | Some(value: T)
}
